=== FILE: README.md ===
# Chat web client: event reducers in Dafny

A model of the React chat client's core logic. The client signs a user in (or lets them
in as a guest), lists chat rooms, and inside a room shows a live message log, the online
users and who is typing, all fed by socket events. Every part of that logic is an event
reducer hidden inside a UI component. Here each one is an immutable state record plus one
pure function per inbound event, timer firing or user action. Timers are deadline fields
on an abstract integer clock, and a `Tick(now)`/`ClockAt(now)` event fires every deadline
that is due. An event stamped with a time is taken to follow a clock event at that time,
so that every timer due by then has already fired; a run that leaves out such a clock
event describes timers that fire late.

Modules, one per source file, plus four shared ones:

- `Outcomes`: `Option` for values that may be `null`. `Reply` is the settled result of an
  awaited REST helper: `Ok` or `Failed(message)`. `ErrorText` models `err.message || fallback`.
- `Text`: JavaScript's `trim` (the ECMAScript white-space and line-terminator set),
  `includes` and `join`.
- `WelcomePattern`: the regular expression `/Welcome to (.*?)!,/`, with leftmost-match and
  lazy-group semantics, where `.` does not match a line terminator. It is proved equal to a
  declarative definition of "the leftmost, shortest match".
- `Wire`: the socket payloads.
- `App` (`src/App.jsx`): the session, its local-storage mirror, and the route table.
- `SocketContext` (`src/contexts/SocketContext.jsx`): the connected flag and the capped
  reconnect-attempt counter.
- `MessageInput` (`src/components/MessageInput.jsx`): the outbound typing signal, which is
  an edge-triggered flag with one 1500-unit debounce.
- `ChatRoom` (`src/pages/ChatRoomPage.jsx`): the join guard, the message log with the
  self-welcome filter and the one-shot room-name capture, presence snapshots, and peer
  typing entries with 2000-unit expiries.
- `HomePage` (`src/pages/HomePage.jsx`): room de-duplication, the create-room form, and
  logout.
- `AuthPage` (`src/pages/AuthPage.jsx`): form validation, login/sign-up replies, and guest
  entry.
- `TypingIndicator` and `MessageList`: the two presentation rules.

Behaviours of the code that the model keeps:

- No leave command is ever sent.
- The log is reset only by a new `chatHistory` snapshot.
- The captured room name is never reset.
- The room effect's cleanup cancels the peer timeouts but keeps the typing entries.
  `ChatRoom.StaleAfterCleanup` shows such an entry never expires.
- Once the name is known, a second self-welcome is still logged if it reports a join or a
  leave.
- The client does nothing special on an `'io server disconnect'`: that branch is empty.
  Whether to reconnect is left to the socket library.

## Model

| member | source | states |
|---|---|---|
| Outcomes.ErrorText | src/pages/HomePage.jsx:24 | the shown error is the thrown message when it is non-empty, otherwise the page's fallback text |
| Text.Trim | src/components/MessageInput.jsx:31-32 | `trim` returns the one slice of the text bounded by non-space characters with only white space outside it, and is empty exactly when the text is all white space |
| Text.TrimIdempotent | src/pages/ChatRoomPage.jsx:139-140 | trimming an already trimmed text changes nothing, so text trimmed by the input box is sent as handed over |
| Text.ContainsIffOccurs | src/pages/ChatRoomPage.jsx:55 | `includes` holds exactly when the substring occurs at some index |
| Text.JoinSnoc | src/components/TypingIndicator.jsx:8 | joining one more name appends the separator and that name, so names keep their list order |
| WelcomePattern.MatchWelcome | src/pages/ChatRoomPage.jsx:59 | a capture is returned only from the leftmost match, with the shortest group there, and nothing is returned exactly when the pattern matches nowhere |
| WelcomePattern.MatchWelcomeComplete | src/pages/ChatRoomPage.jsx:59 | whenever a leftmost-lazy match exists, its group is what `match` captures |
| App.LoadUser | src/App.jsx:14-22 | the initial user is the stored user record, and null when the key is missing or its text does not parse |
| App.LoadToken | src/App.jsx:23 | the initial token is the text stored under 'token', and null when the key is missing |
| App.UpdateUserAndToken | src/App.jsx:27-40 | a present user is stored under 'user' and a null one removes it; a truthy token is stored under 'token', any other removes it; every other key is untouched |
| App.ReloadRestoresSession | src/App.jsx:14-39 | after persisting, a reload restores the same user, and the token exactly when it was truthy |
| App.StorageKeysIndependent | src/App.jsx:30-39 | the 'user' entry depends only on the user argument and the 'token' entry only on the token argument |
| App.RoomIdOf | src/App.jsx:70 | `/room/:roomId` matches exactly `/room/` followed by one non-empty segment, which is the id |
| App.Route | src/App.jsx:51-73 | loading screen first, the configuration error without a backend URL, `/auth` always rendered, `/` and `/room/:id` rendered only with a user and otherwise redirected to `/auth`, every other path redirected to `/` |
| App.RedirectsSettle | src/App.jsx:68-72 | following the redirects from any path reaches a rendered page within two hops, and without a user only `/auth` renders |
| SocketContext.Initial | src/contexts/SocketContext.jsx:10-11 | the provider starts disconnected with no attempts counted |
| SocketContext.Step | src/contexts/SocketContext.jsx:27-56 | a connect sets connected and resets the counter; a disconnect of any reason clears connected and keeps the counter; a connection error counts only below 5; a server error changes nothing |
| SocketContext.AttemptsStayBounded | src/contexts/SocketContext.jsx:45-50 | whatever events arrive, the counter never exceeds 5 |
| SocketContext.ErrorsSaturate | src/contexts/SocketContext.jsx:43-51 | n consecutive connection errors count min(n, 5) attempts in total and leave the connected flag alone |
| SocketContext.DisconnectReasonIrrelevant | src/contexts/SocketContext.jsx:33-41 | the disconnect reason has no effect on the state, and a later connect restores a fresh connected state |
| MessageInput.Keystroke | src/components/MessageInput.jsx:8-27 | a keystroke emits `typing(true)` only on the idle-to-typing edge, sets the flag, and leaves exactly one debounce pending, due 1500 units later |
| MessageInput.Tick | src/components/MessageInput.jsx:23-26 | a due debounce emits `typing(false)` and clears the flag; before its deadline nothing changes |
| MessageInput.Submit | src/components/MessageInput.jsx:29-43 | blank text changes nothing and sends nothing; other text is sent trimmed and the input cleared, and a set flag is cleared with one `typing(false)` and the debounce cancelled |
| MessageInput.CleanupAsWritten | src/components/MessageInput.jsx:46-56 | the cleanup as written cancels the debounce and emits `typing(false)` iff the flag is set, but keeps the flag |
| MessageInput.Cleanup | src/components/MessageInput.jsx:46-56 | the corrected cleanup also clears the flag, returning the input to idle |
| MessageInput.StepKeepsAlternation | src/components/MessageInput.jsx:8-43 | each event keeps "pending debounce implies flag set" and "flag set iff an odd number of signals" and continues the alternation |
| MessageInput.SignalsAlternate | src/components/MessageInput.jsx:8-43 | with the corrected cleanup, the emitted typing values strictly alternate for every event sequence |
| MessageInput.InitialSignalsAlternate | src/components/MessageInput.jsx:6-43 | from mount, the emitted values are true, false, true, ... |
| MessageInput.Initial | src/components/MessageInput.jsx:4-6 | the input mounts empty, with the flag clear and no debounce timer |
| MessageInput.RunAppend | src/components/MessageInput.jsx:8-56 | running two event sequences one after the other is running their concatenation, with the signals in order |
| MessageInput.TypingThroughBurst | src/components/MessageInput.jsx:12-26 | while the flag is set, keystrokes that each come before the pending debounce is due emit nothing and move the deadline to 1500 after the last one |
| MessageInput.BurstFromIdle | src/components/MessageInput.jsx:12-26 | from idle, any non-empty burst of keystrokes within the window emits exactly one true and leaves the flag set, with the debounce due 1500 after the last keystroke |
| MessageInput.BurstThenIdle | src/components/MessageInput.jsx:12-26 | from idle, any non-empty burst of keystrokes, each before the previous one's debounce is due, emits exactly one true; the clock reaching the last deadline emits exactly one false, clears the flag and keeps the last text |
| MessageInput.RunWithoutCleanup | src/components/MessageInput.jsx:46-56 | as long as no cleanup runs, the code as written and the corrected model behave identically |
| MessageInput.AsWrittenAlternatesWithoutCleanup | src/components/MessageInput.jsx:8-43 | as written, the emitted values alternate from mount in every event sequence without a cleanup |
| MessageInput.AsWrittenPendingImpliesTyping | src/components/MessageInput.jsx:18-26 | as written, a pending debounce implies the flag is set after every event sequence, cleanups included |
| MessageInput.AsWrittenTrace | src/components/MessageInput.jsx:46-56 | as written, keystroke, parent re-render, keystroke, idle interval emits true, false, false and ends idle |
| MessageInput.CorrectedTrace | src/components/MessageInput.jsx:46-56 | with the corrected cleanup the same events emit true, false, true, false |
| MessageInput.CleanupAsWrittenRepeatsFalse | src/components/MessageInput.jsx:46-56 | as written, the same events emit two `typing(false)` in a row, so the alternation the corrected cleanup keeps fails |
| ChatRoom.Mount | src/pages/ChatRoomPage.jsx:16-21 | a mounted room page has an empty log, presence list and typing map, and the room name 'Loading...' |
| ChatRoom.JoinGuard | src/pages/ChatRoomPage.jsx:30-42 | with a user, a connection and a socket the page emits `joinRoom` with the user's e-mail, the room id and the user id; otherwise it waits 1000 units and then sends only a signed-out visitor to `/auth` |
| ChatRoom.Captured | src/pages/ChatRoomPage.jsx:59-60 | a room name is captured only when the pattern matches with a non-empty group, and is then the leftmost-lazy group |
| ChatRoom.OnChatHistory | src/pages/ChatRoomPage.jsx:46-50 | a history snapshot becomes the log, and nothing else changes |
| ChatRoom.OnMessage | src/pages/ChatRoomPage.jsx:52-75 | non-self-welcomes are appended; while loading, a self-welcome is appended and sets the name iff it has a non-empty capture; afterwards it is appended iff it reports a join or leave; the name changes only from 'Loading...' to a captured group |
| ChatRoom.OnRoomUsers | src/pages/ChatRoomPage.jsx:78-81 | a presence snapshot becomes the presence list, and nothing else changes |
| ChatRoom.SetKey | src/pages/ChatRoomPage.jsx:88 | setting a typing entry keeps an existing key in place, appends a new one last, and never duplicates a key |
| ChatRoom.Keep | src/pages/ChatRoomPage.jsx:97-102 | deleting entries keeps exactly the keys not deleted, without introducing duplicates |
| ChatRoom.OnTypingStatus | src/pages/ChatRoomPage.jsx:83-111 | the user's own status changes nothing; a start sets the peer's entry and its single deadline now+2000; a stop removes both; other peers are untouched |
| ChatRoom.OnClock | src/pages/ChatRoomPage.jsx:94-100 | the clock removes exactly the peers whose deadline has passed, with their deadlines, and keeps every other entry and pending deadline |
| ChatRoom.OnCleanup | src/pages/ChatRoomPage.jsx:126-128 | the cleanup cancels every pending peer deadline and changes nothing else |
| ChatRoom.SendMessage | src/pages/ChatRoomPage.jsx:138-142 | with a socket, a non-blank text is sent trimmed; a blank text or a missing socket sends nothing |
| ChatRoom.StepKeepsWf | src/pages/ChatRoomPage.jsx:83-128 | every event keeps the user out of the typing list, the list duplicate-free, and every pending deadline attached to a listed peer |
| ChatRoom.RunKeepsWf | src/pages/ChatRoomPage.jsx:83-128 | every event sequence keeps that well-formedness |
| ChatRoom.MountWf | src/pages/ChatRoomPage.jsx:16-21 | the page mounts with that well-formedness |
| ChatRoom.MountedRunWf | src/pages/ChatRoomPage.jsx:16-128 | after any events since mount, the typing bookkeeping is well formed and the user is unchanged |
| ChatRoom.RoutedRoomJoinsOrWaits | src/App.jsx:70 | when the router shows the room page for an id, the path names that id, a user is signed in, and the guard joins that room as that user exactly when connected with a socket, and otherwise waits without redirecting |
| ChatRoom.SecondSnapshotReplaces | src/pages/ChatRoomPage.jsx:46-50 | a second snapshot replaces the first instead of appending to it |
| ChatRoom.PresenceIsLatestSnapshot | src/pages/ChatRoomPage.jsx:78-81 | the presence list is exactly the latest snapshot |
| ChatRoom.AppendsInOrder | src/pages/ChatRoomPage.jsx:71-73 | messages other than self-welcomes are appended in arrival order, and only the log changes |
| ChatRoom.HistoryThenAppends | src/pages/ChatRoomPage.jsx:46-73 | a snapshot h followed by messages ms that are not self-welcomes leaves exactly h + ms in the log |
| ChatRoom.JoinThenMessage | src/pages/ChatRoomPage.jsx:46-73 | an empty history followed by bob's "hi" leaves exactly that message in the log |
| ChatRoom.LogAppendOnly | src/pages/ChatRoomPage.jsx:52-75 | without a new snapshot the earlier log is always a prefix of the later one |
| ChatRoom.NameStable | src/pages/ChatRoomPage.jsx:58-70 | once the room name is captured it never changes again |
| ChatRoom.BareWelcomeStep | src/pages/ChatRoomPage.jsx:55-70 | a single event other than a snapshot logs a self-welcome without join or leave text only by spending the pending name capture, or by capturing the name 'Loading...' itself, which keeps the capture pending |
| ChatRoom.WelcomeLoggedOnce | src/pages/ChatRoomPage.jsx:55-70 | between snapshots, a self-welcome without join or leave text is logged at most once, and never once the name is known, plus once more for each welcome whose capture is 'Loading...' itself |
| ChatRoom.SelfNeverTyping | src/pages/ChatRoomPage.jsx:86 | the user's own typing status never changes the page |
| ChatRoom.ExpiresAtDeadline | src/pages/ChatRoomPage.jsx:87-100 | a peer who starts typing at t is listed at every reading before t+2000 and removed at t+2000 |
| ChatRoom.StaleAfterCleanup | src/pages/ChatRoomPage.jsx:126-128 | a typing entry present at cleanup is never removed by the clock afterwards |
| ChatRoom.SubmittedTextIsSent | src/pages/ChatRoomPage.jsx:138-142 | whatever the input box submits is sent unchanged when a socket exists, and nothing is sent without one |
| HomePage.Mount | src/pages/HomePage.jsx:10-13 | the lobby mounts with no rooms, an empty form and no error, and loading |
| HomePage.AnyClash | src/pages/HomePage.jsx:38 | the `some` test holds iff a listed room shares the id or the name |
| HomePage.OnNewRoomCreated | src/pages/HomePage.jsx:36-42 | an announced room is appended iff no listed room shares its id or name, otherwise the list is unchanged; afterwards it is listed |
| HomePage.NewRoomIdempotent | src/pages/HomePage.jsx:38-41 | delivering the same announcement twice equals delivering it once |
| HomePage.NewRoomKeepsDistinct | src/pages/HomePage.jsx:38-39 | the handler never introduces a second room with a listed id or name |
| HomePage.DeliverGrows | src/pages/HomePage.jsx:36-42 | from any list, announcements keep the earlier rooms as a prefix, add at most one room each, and leave every announced room listed |
| HomePage.DeliverKeepsDistinct | src/pages/HomePage.jsx:34-42 | over any announcements the list keeps its earlier rooms as a prefix, grows by at most one per announcement, stays duplicate-free, and lists every announced room |
| HomePage.RoomsFetched | src/pages/HomePage.jsx:18-28 | a fetched list replaces the rooms; a failed fetch keeps them and shows a non-empty error; loading ends either way |
| HomePage.StaleErrorSurvivesRefetch | src/pages/HomePage.jsx:20-24 | a successful fetch after a failed one shows the new list but keeps the failure's error, which the fetch never clears |
| HomePage.SubmitCreateRoom | src/pages/HomePage.jsx:53-62 | the error is cleared; a blank name is refused with 'Room name cannot be empty.' and no request; otherwise the request carries the non-empty trimmed name |
| HomePage.CreateRoomReplied | src/pages/HomePage.jsx:60-68 | success clears the input without touching the list; failure shows its message or 'Failed to create room.' |
| HomePage.CreatedRoomListedByAnnouncement | src/pages/HomePage.jsx:36-65 | a successful creation leaves the list as it was and the error cleared; the room is listed once its announcement arrives, appended at the end unless a room with its id or name is already there |
| HomePage.RoomPath | src/pages/HomePage.jsx:71-73 | the join path is `/room/` followed by the room id |
| HomePage.RoomPathRoundTrip | src/pages/HomePage.jsx:71-73 | joining a room with a non-empty single-segment id opens the room page for that same id |
| HomePage.Logout | src/pages/HomePage.jsx:75-90 | a guest is signed out without asking the server; others are signed out only on the server's success, and a failure keeps the session and shows its message or 'Logout failed.' |
| HomePage.LogoutForgetsUser | src/pages/HomePage.jsx:77-86 | after a completed logout a reload finds neither user nor token |
| AuthPage.Mount | src/pages/AuthPage.jsx:7-12 | the form mounts in login mode with empty fields and messages |
| AuthPage.Submit | src/pages/AuthPage.jsx:17-35 | both messages are cleared; a missing field (username only in sign-up mode, untrimmed) is refused with 'Please fill in all fields.' and no request; otherwise the mode's request carries the fields |
| AuthPage.UntrimmedFieldsPass | src/pages/AuthPage.jsx:22-47 | a white-space e-mail and password pass the submit check but a white-space guest e-mail is refused |
| AuthPage.LoginReplied | src/pages/AuthPage.jsx:27-40 | a successful login stores `{id: userId, email}` as a non-guest with the returned token and goes to `/`; a failure shows its message or the generic one |
| AuthPage.SignupReplied | src/pages/AuthPage.jsx:32-39 | a successful sign-up does not sign in, switches to login mode and shows the success line; a failure shows its message or the generic one |
| AuthPage.ToggleMode | src/pages/AuthPage.jsx:98 | the switch flips the mode and keeps every field and message |
| AuthPage.ToggleTwice | src/pages/AuthPage.jsx:98 | switching the mode twice restores the form exactly |
| AuthPage.SubmitSendsFilledFields | src/pages/AuthPage.jsx:22-33 | a sent login carries a non-empty e-mail and password, and a sent sign-up also a non-empty username |
| AuthPage.SubmitThenLogin | src/pages/AuthPage.jsx:17-31 | a submitted login that succeeds leaves both messages empty, goes to `/`, and the returned user is restored on reload |
| AuthPage.SignupThenSubmitLogsIn | src/pages/AuthPage.jsx:17-35 | after a successful sign-up, submitting the unchanged form sends a login with the same e-mail and password and clears the confirmation |
| AuthPage.GuestLogin | src/pages/AuthPage.jsx:43-53 | a blank e-mail is refused with its message; otherwise the trimmed e-mail becomes a guest `guest-<stamp>` stored without a token, and the app goes to `/` |
| AuthPage.GuestIsTrimmedAndPersisted | src/pages/AuthPage.jsx:46-51 | an accepted guest has a non-empty trimmed e-mail and survives a reload without a token |
| AuthPage.LoginSurvivesReload | src/pages/AuthPage.jsx:29-30 | a logged-in user survives a reload as a non-guest, with the token exactly when it is non-empty |
| TypingIndicator.Sentence | src/components/TypingIndicator.jsx:2-8 | there is no sentence exactly when nobody is typing |
| TypingIndicator.SentenceShape | src/components/TypingIndicator.jsx:6-8 | one name reads "<name> is typing..."; more read the names joined by ", " and "are typing..." |
| TypingIndicator.SentenceAppendsNewcomer | src/components/TypingIndicator.jsx:8 | a peer added last to the typing map is named last |
| TypingIndicator.JoinNamesEach | src/components/TypingIndicator.jsx:8 | every name occurs in the joined text |
| TypingIndicator.EveryTypistNamed | src/components/TypingIndicator.jsx:8 | every typing peer is named in the sentence |
| MessageList.StyleOf | src/components/MessageList.jsx:11-17 | 'system' is styled as a system message even when it is the user's e-mail; other senders are mine iff they equal the user's e-mail |
| MessageList.LabelOf | src/components/MessageList.jsx:19-23 | system messages have no label; the user's own are labelled 'You'; others carry the sender name |
| MessageList.ClassName | src/components/MessageList.jsx:11-17 | each of the three styles has its own class, 'system-message', 'my-message' or 'other-message' |
| MessageList.ClassAndLabelAgree | src/components/MessageList.jsx:11-23 | the class and the label agree: the system class goes exactly with no label, the 'my-message' class exactly with the label 'You' on the user's own message, the other class with the sender's name |
| MessageList.Render | src/components/MessageList.jsx:8 | one item per message, in log order |
| MessageList.RenderAppend | src/components/MessageList.jsx:8 | appending a message adds its item at the end and keeps the earlier items |

## Left out

- src/api/auth.js and src/api/rooms.js are not part of this model. These are the HTTP
  helpers. Each awaited call is a `Reply` parameter: the resolved payload, or the thrown
  error's message.
- The socket library's reconnection scheduling (src/contexts/SocketContext.jsx:21-25) is
  foreign code. Its two constants are recorded, but only the handlers' bookkeeping is
  modelled.
- Socket creation is not modelled: the provider's `backendUrl` guard
  (src/contexts/SocketContext.jsx:16-19), its `setSocket`, and the disconnect in its
  cleanup. Whether a socket exists is a boolean parameter where the pages test it.
- Real time and `setTimeout` become the integer clock. `Date.now()` in guest ids becomes the
  `stamp` parameter.
- Output-only effects are not modelled: `alert`, `console` logging, `scrollIntoView`, and
  `moment` timestamp formatting. Timestamps stay the server's text.
- React mechanics are left out: render scheduling, effect re-run timing, and the split
  between refs and state. Strict-mode double invocation of state updaters is left out too;
  in the room page it would start a second peer timeout, because `setTimeout` sits inside
  the updater. A re-run of the room effect is modelled as `Cleanup` followed by a fresh
  `JoinGuard`, with the rest of the state kept.
- The room cleanup also detaches the page's four socket handlers
  (src/pages/ChatRoomPage.jsx:121-124). In the model, room events after a `Cleanup` stand
  for a re-subscribed room, since a re-run of the effect subscribes them again.
- A change of signed-in user while the room page stays mounted is not modelled: the
  state's `self` is fixed.
- The token-verification effect (src/App.jsx:43-48) only ends loading. It is the
  `isLoading` parameter of `Route`.
- The lobby re-fetches rooms whenever the connection state changes. Each fetch is one
  more `RoomsFetched`; the `loading` flag set at fetch start is not modelled separately.
  Without a socket the lobby subscribes to nothing, which is not modelled either.
- JavaScript orders integer-like object keys numerically before other keys. The typing
  list keeps plain insertion order, which is what e-mail keys get.
- App.LoadUser: stored text that parses to something other than a user object is modelled
  as text that does not parse, so such a value yields null.
- App.LoadToken: a user record stored under 'token' reads as no token, because a stored
  `Json` value keeps the record rather than its text; `getItem('token')` would return that
  JSON text, which is truthy. The application itself only ever stores text there.
- App.RoomIdOf: the segment is taken as written and compared case-sensitively. React Router
  also matches `/ROOM/x` and `/room/x/`, and percent-decodes the id, so `/room/a%20b` gives
  the id "a b" there but "a%20b" here.
- HomePage.RoomPathRoundTrip: the navigation target is treated as a bare path. React Router
  splits off a `?query` or `#hash` and percent-decodes the id, so for an id holding '?',
  '#' or '%' the room page opens with a different id, or not at all. Room ids come from
  the server, which is not part of this model.
- App.Route: exact string comparison of paths. React Router also ignores a trailing slash
  and letter case, which is not modelled.
- ChatRoom.Keep: that the remaining keys keep their relative order follows from the
  definition but is not stated in the contract.
- MessageInput.Submit: the sent text and the `typing(false)` signal are separate fields of
  the outcome, so their order is not recorded; the code sends the message first (line 32)
  and the signal after it (line 36).
- src/components/OnlineUsersList.jsx and src/components/RoomList.jsx are pure layout and
  are not part of this model.

## Findings

| source | as written | input that shows it | evidently intended | confidence | as-written member | corrected member |
|---|---|---|---|---|---|---|
| src/components/MessageInput.jsx:46-56 | the cleanup depends on `[onTyping]`, and the room page passes a new `handleTyping` on every render, so it runs on every parent re-render; it emits `typing(false)` and cancels the debounce but leaves `isTypingRef` set | keystroke, then a parent re-render (for example an incoming message), then a keystroke, then 1500 idle units: the emitted values are true, false, false, and peers see "not typing" during the second burst | the emitted values alternate; the cleanup clears the flag too, or runs only on unmount | not executed | MessageInput.CleanupAsWrittenRepeatsFalse | MessageInput.SignalsAlternate |

=== FILE: app.dfy ===
/** The application shell: the signed-in identity and its token, their persistence in
    the browser's local storage, and the route table that guards the pages. */
module App {
  import opened Outcomes

  /** The signed-in identity. Users from a login carry no `isGuest` field, which reads
      as false. */
  datatype User = User(id: string, email: string, isGuest: bool)

  /** A local-storage value. `JSON.stringify` of a user is kept as the record itself,
      so that parsing it back yields the same user; any other stored text counts as
      text that `JSON.parse` rejects. */
  datatype Stored = Json(user: User) | Raw(text: string)

  type Store = map<string, Stored>

  const UserKey := "user"
  const TokenKey := "token"

  /** The `UserContext` value together with the storage it mirrors. */
  datatype Session = Session(user: Option<User>, token: Option<string>, store: Store)

  /** A token is stored only when it is truthy: present and non-empty. */
  predicate Truthy(token: Option<string>)
  {
    token.Some? && token.value != ""
  }

  /** The initial `user`: the parsed stored user, or null when the key is missing or its
      text does not parse. */
  function LoadUser(store: Store): (r: Option<User>)
    ensures r.Some? <==> UserKey in store && store[UserKey].Json?
    ensures r.Some? ==> r.value == store[UserKey].user
  {
    if UserKey in store && store[UserKey].Json? then Some(store[UserKey].user) else None
  }

  /** The initial `token`: `localStorage.getItem('token')`. */
  function LoadToken(store: Store): (r: Option<string>)
    ensures r.Some? <==> TokenKey in store && store[TokenKey].Raw?
    ensures r.Some? ==> r.value == store[TokenKey].text
  {
    if TokenKey in store && store[TokenKey].Raw? then Some(store[TokenKey].text) else None
  }

  /** The session the application starts with, read from storage. */
  function Boot(store: Store): Session
  {
    Session(LoadUser(store), LoadToken(store), store)
  }

  /** `updateUserAndToken`: sets both context values and mirrors them into storage,
      removing a key whose value is null (user) or falsy (token). */
  function UpdateUserAndToken(s: Session, user: Option<User>, token: Option<string>): (r: Session)
    ensures r.user == user && r.token == token
    ensures UserKey in r.store <==> user.Some?
    ensures user.Some? ==> r.store[UserKey] == Json(user.value)
    ensures TokenKey in r.store <==> Truthy(token)
    ensures Truthy(token) ==> r.store[TokenKey] == Raw(token.value)
    ensures forall k :: k != UserKey && k != TokenKey ==>
              (k in r.store <==> k in s.store) && (k in r.store ==> r.store[k] == s.store[k])
  {
    var withUser := if user.Some? then s.store[UserKey := Json(user.value)] else s.store - {UserKey};
    var withToken := if Truthy(token) then withUser[TokenKey := Raw(token.value)] else withUser - {TokenKey};
    Session(user, token, withToken)
  }

  /** Persisting and then reloading the application restores the same user, and the
      token exactly when it was truthy. */
  lemma ReloadRestoresSession(s: Session, user: Option<User>, token: Option<string>)
    ensures var r := Boot(UpdateUserAndToken(s, user, token).store);
      r.user == user && r.token == (if Truthy(token) then token else None)
  {
  }

  /** The 'user' entry depends only on the user argument and the 'token' entry only on
      the token argument. */
  lemma StorageKeysIndependent(s: Session, u1: Option<User>, u2: Option<User>, t1: Option<string>, t2: Option<string>)
    ensures var a, b := UpdateUserAndToken(s, u1, t1).store, UpdateUserAndToken(s, u1, t2).store;
      (UserKey in a <==> UserKey in b) && (UserKey in a ==> a[UserKey] == b[UserKey])
    ensures var a, b := UpdateUserAndToken(s, u1, t1).store, UpdateUserAndToken(s, u2, t1).store;
      (TokenKey in a <==> TokenKey in b) && (TokenKey in a ==> a[TokenKey] == b[TokenKey])
  {
  }

  /** The pages of the route table. */
  datatype Page = AuthPage | HomePage | ChatRoomPage(roomId: string)

  /** What the application renders. */
  datatype Screen = LoadingScreen | ConfigError | Show(page: Page) | Redirect(to: string)

  /** The `:roomId` segment of a `/room/:roomId` path: non-empty and free of `/`. */
  function RoomIdOf(path: string): (r: Option<string>)
    ensures r.Some? <==> |path| > 6 && path[..6] == "/room/" && '/' !in path[6..]
    ensures r.Some? ==> path == "/room/" + r.value && r.value != ""
  {
    if |path| > 6 && path[..6] == "/room/" && '/' !in path[6..] then Some(path[6..]) else None
  }

  /** `!backendUrl`: the URL is missing or empty. */
  predicate BackendMissing(backendUrl: Option<string>)
  {
    backendUrl.None? || backendUrl.value == ""
  }

  /** The rendering of `App`: the loading screen on the first render, the configuration
      error without a backend URL, and otherwise the route table. */
  function Route(isLoading: bool, backendUrl: Option<string>, user: Option<User>, path: string): (r: Screen)
    ensures isLoading <==> r == LoadingScreen
    ensures !isLoading ==> (BackendMissing(backendUrl) <==> r == ConfigError)
    ensures r == Show(AuthPage) <==> !isLoading && !BackendMissing(backendUrl) && path == "/auth"
    ensures r.Show? && r.page != AuthPage ==> user.Some?
    ensures r.Redirect? ==> r.to == "/auth" || r.to == "/"
    ensures !isLoading && !BackendMissing(backendUrl) && path == "/" ==>
              r == (if user.Some? then Show(HomePage) else Redirect("/auth"))
    ensures !isLoading && !BackendMissing(backendUrl) && RoomIdOf(path).Some? ==>
              r == (if user.Some? then Show(ChatRoomPage(RoomIdOf(path).value)) else Redirect("/auth"))
    ensures r == Redirect("/") <==>
              !isLoading && !BackendMissing(backendUrl) && path != "/auth" && path != "/" && RoomIdOf(path).None?
  {
    if isLoading then LoadingScreen
    else if BackendMissing(backendUrl) then ConfigError
    else if path == "/auth" then Show(AuthPage)
    else if path == "/" then (if user.Some? then Show(HomePage) else Redirect("/auth"))
    else if RoomIdOf(path).Some? then
      (if user.Some? then Show(ChatRoomPage(RoomIdOf(path).value)) else Redirect("/auth"))
    else Redirect("/")
  }

  /** Following redirects from any path reaches a rendered page after at most two hops:
      unknown paths go to `/`, and guarded pages without a user go to `/auth`. */
  lemma RedirectsSettle(backendUrl: Option<string>, user: Option<User>, path: string)
    requires !BackendMissing(backendUrl)
    ensures var r1 := Route(false, backendUrl, user, path);
      r1.Show? ||
      (r1.Redirect? && var r2 := Route(false, backendUrl, user, r1.to);
        r2.Show? || (r2.Redirect? && Route(false, backendUrl, user, r2.to).Show?))
    ensures user.None? ==> Route(false, backendUrl, user, path).Show? ==> path == "/auth"
  {
    assert RoomIdOf("/auth").None?;
    assert RoomIdOf("/").None?;
  }
}

=== FILE: auth_page.dfy ===
/** The sign-in page: the login/sign-up form with its validation, the handling of the
    server's replies, and entry as a guest without a server account. */
module AuthPage {
  import opened Outcomes
  import opened Text
  import opened App

  /** The form state; `success` is the sign-up confirmation line. */
  datatype AuthForm = AuthForm(isLogin: bool, username: string, email: string, password: string,
                               error: string, success: string)

  /** The state at mount: login mode with empty fields. */
  function Mount(): (r: AuthForm)
    ensures r.isLogin && r.username == "" && r.email == "" && r.password == ""
    ensures r.error == "" && r.success == ""
  {
    AuthForm(true, "", "", "", "", "")
  }

  const MissingFieldsError := "Please fill in all fields."
  const SignupSuccess := "Registration successful! Please log in."
  const UnexpectedError := "An unexpected error occurred."
  const GuestEmailError := "Please enter an email/username to proceed as guest."

  /** The request a valid submission sends. */
  datatype Request =
    | LoginRequest(email: string, password: string)
    | SignupRequest(username: string, email: string, password: string)

  /** The form after submitting it, and the request sent, if any. */
  datatype SubmitOutcome = SubmitOutcome(form: AuthForm, request: Option<Request>)

  /** A required field is the empty string. Fields are checked as typed, untrimmed; the
      username is required in sign-up mode only. */
  predicate MissingFields(f: AuthForm)
  {
    f.email == "" || f.password == "" || (!f.isLogin && f.username == "")
  }

  /** `handleSubmit` up to the request: both messages are cleared, then a missing field
      is refused with 'Please fill in all fields.'; otherwise the mode decides the request. */
  function Submit(f: AuthForm): (r: SubmitOutcome)
    ensures r.form == f.(error := r.form.error, success := "")
    ensures r.request.None? <==> MissingFields(f)
    ensures r.form.error == (if MissingFields(f) then MissingFieldsError else "")
    ensures r.request.Some? && f.isLogin ==> r.request.value == LoginRequest(f.email, f.password)
    ensures r.request.Some? && !f.isLogin ==> r.request.value == SignupRequest(f.username, f.email, f.password)
  {
    var cleared := f.(error := "", success := "");
    if MissingFields(f) then SubmitOutcome(cleared.(error := MissingFieldsError), None)
    else if f.isLogin then SubmitOutcome(cleared, Some(LoginRequest(f.email, f.password)))
    else SubmitOutcome(cleared, Some(SignupRequest(f.username, f.email, f.password)))
  }

  /** A white-space password or e-mail passes submit validation, which refuses only the
      empty string; a guest e-mail, by contrast, is trimmed before it is validated. */
  lemma UntrimmedFieldsPass(f: AuthForm)
    requires f.isLogin && f.email == " " && f.password == " "
    ensures Submit(f).request == Some(LoginRequest(" ", " "))
    ensures GuestLogin(f, Session(None, None, map[]), "1").form.error == GuestEmailError
  {
    assert IsSpace(f.email[0]);
  }

  /** The payload of a successful login. */
  datatype LoginData = LoginData(userId: string, email: string, token: Option<string>)

  /** The page state after a settled request, the session, and where the application
      navigates, if anywhere. */
  datatype AuthOutcome = AuthOutcome(form: AuthForm, session: Session, navigate: Option<string>)

  /** The settled login: success stores `{id: userId, email}` with the returned token and
      goes to `/`; failure shows its message or 'An unexpected error occurred.'. */
  function LoginReplied(f: AuthForm, session: Session, reply: Reply<LoginData>): (r: AuthOutcome)
    ensures reply.Ok? ==> r.session == UpdateUserAndToken(session,
              Some(User(reply.value.userId, reply.value.email, false)), reply.value.token)
    ensures reply.Ok? ==> r.navigate == Some("/") && r.form == f
    ensures reply.Failed? ==> r.session == session && r.navigate.None?
    ensures reply.Failed? ==> r.form == f.(error := ErrorText(reply.message, UnexpectedError))
  {
    match reply
    case Ok(data) =>
      AuthOutcome(f, UpdateUserAndToken(session, Some(User(data.userId, data.email, false)), data.token), Some("/"))
    case Failed(message) => AuthOutcome(f.(error := ErrorText(message, UnexpectedError)), session, None)
  }

  /** The settled sign-up: success does not sign in; it switches to login mode and shows
      'Registration successful! Please log in.'. Failure shows its message or the
      generic one. */
  function SignupReplied(f: AuthForm, reply: Reply<()>): (r: AuthForm)
    ensures reply.Ok? ==> r == f.(isLogin := true, success := SignupSuccess)
    ensures reply.Failed? ==> r == f.(error := ErrorText(reply.message, UnexpectedError))
  {
    match reply
    case Ok(_) => f.(isLogin := true, success := SignupSuccess)
    case Failed(message) => f.(error := ErrorText(message, UnexpectedError))
  }

  /** The mode switch flips between login and sign-up and keeps every field. */
  function ToggleMode(f: AuthForm): (r: AuthForm)
    ensures r.isLogin == !f.isLogin
    ensures r.(isLogin := f.isLogin) == f
  {
    f.(isLogin := !f.isLogin)
  }

  /** `handleGuestLogin`, with the `Date.now()` value as `stamp`: a blank e-mail is refused
      (the previous error is not cleared first); otherwise the trimmed e-mail becomes a
      guest user with id `guest-<stamp>`, stored without a token, and the application
      goes to `/`. */
  function GuestLogin(f: AuthForm, session: Session, stamp: string): (r: AuthOutcome)
    ensures IsBlank(f.email) ==> r == AuthOutcome(f.(error := GuestEmailError), session, None)
    ensures !IsBlank(f.email) ==> r.form == f && r.navigate == Some("/")
    ensures !IsBlank(f.email) ==>
              r.session == UpdateUserAndToken(session, Some(User("guest-" + stamp, Trim(f.email), true)), None)
  {
    if IsBlank(f.email) then AuthOutcome(f.(error := GuestEmailError), session, None)
    else AuthOutcome(f, UpdateUserAndToken(session, Some(User("guest-" + stamp, Trim(f.email), true)), None), Some("/"))
  }

  /** An accepted guest is a guest user whose e-mail is non-empty and already trimmed, and
      whom a reload of the application restores, with no token. */
  lemma GuestIsTrimmedAndPersisted(f: AuthForm, session: Session, stamp: string)
    requires !IsBlank(f.email)
    ensures var s := GuestLogin(f, session, stamp).session;
      && s.user.Some? && s.user.value.isGuest && s.token.None?
      && s.user.value.email != "" && Trim(s.user.value.email) == s.user.value.email
      && Boot(s.store) == Session(s.user, None, s.store)
  {
    TrimIdempotent(f.email);
  }

  /** A successful login survives a reload: the restored user is not a guest and the
      token is restored exactly when it is non-empty. */
  lemma LoginSurvivesReload(f: AuthForm, session: Session, data: LoginData)
    ensures var s := LoginReplied(f, session, Ok(data)).session;
      && Boot(s.store).user == Some(User(data.userId, data.email, false))
      && Boot(s.store).token == (if Truthy(data.token) then data.token else None)
  {
  }

  /** A sent request never carries an empty field that the mode requires. */
  lemma SubmitSendsFilledFields(f: AuthForm)
    ensures var q := Submit(f).request;
      && (q.Some? && q.value.LoginRequest? ==> q.value.email != "" && q.value.password != "")
      && (q.Some? && q.value.SignupRequest? ==>
            q.value.username != "" && q.value.email != "" && q.value.password != "")
  {
  }

  /** A submitted login that succeeds leaves both messages empty, goes to `/`, and a
      reload restores the user the server returned. */
  lemma SubmitThenLogin(f: AuthForm, session: Session, data: LoginData)
    requires f.isLogin && Submit(f).request.Some?
    ensures var o := LoginReplied(Submit(f).form, session, Ok(data));
      && o.form.error == "" && o.form.success == "" && o.navigate == Some("/")
      && Boot(o.session.store).user == Some(User(data.userId, data.email, false))
  {
  }

  /** After a successful sign-up, submitting the form as it stands sends a login with
      the same e-mail and password, and clears the confirmation line. */
  lemma SignupThenSubmitLogsIn(f: AuthForm)
    requires !f.isLogin && Submit(f).request.Some?
    ensures var g := SignupReplied(Submit(f).form, Ok(()));
      && g.success == SignupSuccess
      && Submit(g).request == Some(LoginRequest(f.email, f.password))
      && Submit(g).form.success == ""
  {
  }

  /** Switching the mode twice restores the form exactly. */
  lemma ToggleTwice(f: AuthForm)
    ensures ToggleMode(ToggleMode(f)) == f
  {
  }
}

=== FILE: chat_room.dfy ===
/** The chat room page: the join guard, and the reducer over the room's inbound socket
    events: the history snapshot, single messages with the self-welcome filter and the
    one-shot room-name capture, presence snapshots, peer typing edges with one expiry
    deadline per peer, the firing of those deadlines, and the effect cleanup. */
module ChatRoom {
  import opened Outcomes
  import opened Text
  import opened Wire
  import opened App
  import opened WelcomePattern
  import MessageInput

  /** The room name shown until a welcome has been captured. */
  const LoadingName := "Loading..."
  /** How long a peer's typing entry lives without a refresh, in clock units. */
  const TypingExpiry := 2000
  /** How long the page waits for a user and a connection before redirecting. */
  const RedirectDelay := 1000

  const WelcomeMarker := "Welcome to"
  const JoinedMarker := "has joined the room"
  const LeftMarker := "has left the room"

  /** The page state. `self` is the signed-in e-mail, `roomName` the ref
      `currentRoomNameRef`, `typingPeers` the keys of `typingUsers` in insertion order,
      and `expiries` the deadline of each pending per-peer timeout. */
  datatype RoomState = RoomState(
    self: string,
    messages: seq<Message>,
    roomName: string,
    onlineUsers: seq<OnlineUser>,
    typingPeers: seq<string>,
    expiries: map<string, int>)

  /** The state at mount. */
  function Mount(self: string): (r: RoomState)
    ensures r.self == self && r.roomName == LoadingName
    ensures r.messages == [] && r.onlineUsers == [] && r.typingPeers == [] && r.expiries == map[]
  {
    RoomState(self, [], LoadingName, [], [], map[])
  }

  /** What the room effect does when it runs: join, or wait `RedirectDelay` and then
      navigate to `redirect`, if that is set. */
  datatype JoinDecision = Join(request: JoinRequest) | Wait(deadline: int, redirect: Option<string>)

  /** The guard of the room effect. With a user, a connection and a socket it emits
      `joinRoom`; otherwise it schedules a check that sends a signed-out visitor to
      `/auth` and leaves a signed-in one waiting for the connection. */
  function JoinGuard(user: Option<User>, connected: bool, hasSocket: bool, roomId: string, now: int): (r: JoinDecision)
    ensures r.Join? <==> user.Some? && connected && hasSocket
    ensures r.Join? ==> r.request == JoinRequest(user.value.email, roomId, user.value.id)
    ensures r.Wait? ==> r.deadline == now + RedirectDelay
    ensures r.Wait? ==> (r.redirect.Some? <==> user.None?)
    ensures r.Wait? && r.redirect.Some? ==> r.redirect.value == "/auth"
  {
    if user.Some? && connected && hasSocket then Join(JoinRequest(user.value.email, roomId, user.value.id))
    else Wait(now + RedirectDelay, if user.None? then Some("/auth") else None)
  }

  /** A system message that looks like the welcome addressed to the signed-in user. */
  predicate IsSelfWelcome(self: string, m: Message)
  {
    m.senderUsername == SystemSender && Contains(m.text, WelcomeMarker) && Contains(m.text, self)
  }

  /** A message that reports someone joining or leaving. */
  predicate IsMembershipNotice(m: Message)
  {
    Contains(m.text, JoinedMarker) || Contains(m.text, LeftMarker)
  }

  /** `roomNameMatch && roomNameMatch[1]`: the captured room name, when the pattern
      matches and the capture is non-empty. */
  function Captured(text: string): (r: Option<string>)
    ensures r.Some? ==> r.value != "" && exists i :: LeftmostLazyMatch(text, i, r.value)
    ensures r.None? <==> MatchWelcome(text).None? || MatchWelcome(text).value == ""
  {
    match MatchWelcome(text)
    case Some(g) => if g != "" then Some(g) else None
    case None => None
  }

  /** `handleChatHistory`: the snapshot replaces the log. */
  function OnChatHistory(s: RoomState, history: seq<Message>): (r: RoomState)
    ensures r.messages == history
    ensures r.(messages := s.messages) == s
  {
    s.(messages := history)
  }

  /** `handleMessage`. Anything but a self-welcome is appended. While the name is still
      'Loading...', a self-welcome with a non-empty capture sets the name and is
      appended, and one without is dropped; afterwards a self-welcome is appended only
      when it also reports a join or a leave, and the name stays as it is. */
  function OnMessage(s: RoomState, m: Message): (r: RoomState)
    ensures r.messages == s.messages || r.messages == s.messages + [m]
    ensures r.(messages := s.messages, roomName := s.roomName) == s
    ensures !IsSelfWelcome(s.self, m) ==> r == s.(messages := s.messages + [m])
    ensures r.roomName != s.roomName ==>
              s.roomName == LoadingName && r.roomName != "" && exists i :: LeftmostLazyMatch(m.text, i, r.roomName)
    ensures IsSelfWelcome(s.self, m) && s.roomName == LoadingName ==>
              (r.messages == s.messages + [m] <==> Captured(m.text).Some?)
              && (Captured(m.text).Some? ==> r.roomName == Captured(m.text).value)
              && (Captured(m.text).None? ==> r == s)
    ensures IsSelfWelcome(s.self, m) && s.roomName != LoadingName ==>
              r.roomName == s.roomName && (r.messages == s.messages + [m] <==> IsMembershipNotice(m))
  {
    if IsSelfWelcome(s.self, m) then
      if s.roomName == LoadingName then
        match Captured(m.text)
        case Some(name) => s.(roomName := name, messages := s.messages + [m])
        case None => s
      else if IsMembershipNotice(m) then s.(messages := s.messages + [m])
      else s
    else s.(messages := s.messages + [m])
  }

  /** `handleRoomUsers`: the snapshot replaces the presence list. */
  function OnRoomUsers(s: RoomState, users: seq<OnlineUser>): (r: RoomState)
    ensures r.onlineUsers == users
    ensures r.(onlineUsers := s.onlineUsers) == s
  {
    s.(onlineUsers := users)
  }

  /** No key occurs twice. */
  ghost predicate NoDup(keys: seq<string>)
  {
    forall i, j :: 0 <= i < j < |keys| ==> keys[i] != keys[j]
  }

  /** `obj[key] = true` on an object used as a set: an existing key keeps its place and a
      new key goes last. */
  function SetKey(keys: seq<string>, key: string): (r: seq<string>)
    ensures forall x :: x in r <==> x in keys || x == key
    ensures key in keys ==> r == keys
    ensures key !in keys ==> r == keys + [key]
    ensures NoDup(keys) ==> NoDup(r)
  {
    if key in keys then keys else keys + [key]
  }

  /** `delete obj[key]` for every key of `gone`; the remaining keys keep their relative
      order, since the list is walked front to back. */
  function Keep(keys: seq<string>, gone: set<string>): (r: seq<string>)
    ensures forall x :: x in r <==> x in keys && x !in gone
    ensures |r| <= |keys|
    ensures NoDup(keys) ==> NoDup(r)
    ensures (forall x :: x in keys ==> x !in gone) ==> r == keys
    decreases |keys|
  {
    if |keys| == 0 then []
    else
      var rest := Keep(keys[1..], gone);
      if keys[0] in gone then rest
      else
        assert forall j :: 0 <= j < |keys[1..]| ==> keys[1..][j] == keys[j + 1];
        assert NoDup(keys) ==> NoDup(keys[1..]) by {
          if NoDup(keys) {
            forall i, j | 0 <= i < j < |keys[1..]|
              ensures keys[1..][i] != keys[1..][j]
            {
              assert keys[1..][i] == keys[i + 1] && keys[1..][j] == keys[j + 1];
            }
          }
        }
        [keys[0]] + rest
  }

  /** `handleTypingStatus`. The signed-in user's own status is ignored. A start sets the
      peer's entry and replaces its pending timeout by one due `TypingExpiry` from now; a
      stop removes the entry and cancels the timeout. */
  function OnTypingStatus(s: RoomState, email: string, isTyping: bool, now: int): (r: RoomState)
    ensures email == s.self ==> r == s
    ensures r.(typingPeers := s.typingPeers, expiries := s.expiries) == s
    ensures email != s.self && isTyping ==>
              r.typingPeers == SetKey(s.typingPeers, email) && r.expiries == s.expiries[email := now + TypingExpiry]
    ensures email != s.self && !isTyping ==>
              r.typingPeers == Keep(s.typingPeers, {email}) && r.expiries == s.expiries - {email}
    ensures forall q :: q != email ==>
              (q in r.typingPeers <==> q in s.typingPeers) && (q in r.expiries <==> q in s.expiries)
              && (q in r.expiries ==> r.expiries[q] == s.expiries[q])
  {
    if email == s.self then s
    else if isTyping then
      s.(typingPeers := SetKey(s.typingPeers, email), expiries := s.expiries[email := now + TypingExpiry])
    else
      s.(typingPeers := Keep(s.typingPeers, {email}), expiries := s.expiries - {email})
  }

  /** The peers whose timeout is due at `now`. */
  function Due(s: RoomState, now: int): (r: set<string>)
    ensures forall p :: p in r <==> p in s.expiries && s.expiries[p] <= now
  {
    set p | p in s.expiries && s.expiries[p] <= now
  }

  /** The clock reaches `now`: every due timeout fires and removes its own peer's entry,
      and only that entry; timeouts not yet due stay pending. */
  function OnClock(s: RoomState, now: int): (r: RoomState)
    ensures r.(typingPeers := s.typingPeers, expiries := s.expiries) == s
    ensures forall q :: q in r.typingPeers <==> q in s.typingPeers && !(q in s.expiries && s.expiries[q] <= now)
    ensures forall q :: q in r.expiries <==> q in s.expiries && s.expiries[q] > now
    ensures forall q :: q in r.expiries ==> r.expiries[q] == s.expiries[q]
  {
    s.(typingPeers := Keep(s.typingPeers, Due(s, now)),
       expiries := map p | p in s.expiries && s.expiries[p] > now :: s.expiries[p])
  }

  /** The effect cleanup: every pending timeout is cancelled, and the typing entries, the
      log and the room name are left as they are. */
  function OnCleanup(s: RoomState): (r: RoomState)
    ensures r.expiries == map[]
    ensures r.(expiries := s.expiries) == s
  {
    s.(expiries := map[])
  }

  /** `handleSendMessage`: with a socket, non-blank text is sent trimmed; anything else
      sends nothing. */
  function SendMessage(hasSocket: bool, text: string): (r: Option<string>)
    ensures r.Some? <==> hasSocket && !AllSpace(text)
    ensures r.Some? ==> r.value == Trim(text) && r.value != ""
  {
    if hasSocket && !IsBlank(text) then Some(Trim(text)) else None
  }

  /** The inbound events of a joined room, the clock and the effect cleanup. */
  datatype RoomEvent =
    | ChatHistory(history: seq<Message>)
    | NewMessage(msg: Message)
    | RoomUsers(users: seq<OnlineUser>)
    | TypingStatus(email: string, isTyping: bool, at: int)
    | Tick(now: int)
    | Cleanup

  /** One event. */
  function Step(s: RoomState, e: RoomEvent): (r: RoomState)
    ensures r.self == s.self
  {
    match e
    case ChatHistory(history) => OnChatHistory(s, history)
    case NewMessage(m) => OnMessage(s, m)
    case RoomUsers(users) => OnRoomUsers(s, users)
    case TypingStatus(email, isTyping, at) => OnTypingStatus(s, email, isTyping, at)
    case Tick(now) => OnClock(s, now)
    case Cleanup => OnCleanup(s)
  }

  /** The state after a sequence of events, in arrival order. */
  function Run(s: RoomState, es: seq<RoomEvent>): RoomState
    decreases |es|
  {
    if |es| == 0 then s else Run(Step(s, es[0]), es[1..])
  }

  /** The typing bookkeeping is well formed: the user never appears as a typing peer, no
      peer is listed twice, and every pending timeout belongs to a listed peer, so there
      is at most one per peer. */
  ghost predicate Wf(s: RoomState)
  {
    && s.self !in s.typingPeers
    && NoDup(s.typingPeers)
    && (forall p :: p in s.expiries ==> p in s.typingPeers)
  }

  /** Every event keeps the typing bookkeeping well formed. */
  lemma StepKeepsWf(s: RoomState, e: RoomEvent)
    requires Wf(s)
    ensures Wf(Step(s, e))
  {
  }

  /** Every sequence of events keeps the typing bookkeeping well formed. */
  lemma {:induction false} RunKeepsWf(s: RoomState, es: seq<RoomEvent>)
    requires Wf(s)
    ensures Wf(Run(s, es)) && Run(s, es).self == s.self
    decreases |es|
  {
    if |es| > 0 {
      StepKeepsWf(s, es[0]);
      RunKeepsWf(Step(s, es[0]), es[1..]);
    }
  }

  /** The state at mount is well formed. */
  lemma MountWf(self: string)
    ensures Wf(Mount(self))
  {
  }

  /** Whatever events follow the mount, the typing bookkeeping stays well formed. */
  lemma MountedRunWf(self: string, es: seq<RoomEvent>)
    ensures Wf(Run(Mount(self), es)) && Run(Mount(self), es).self == self
  {
    MountWf(self);
    RunKeepsWf(Mount(self), es);
  }

  /** Whenever the router shows the room page for `roomId`, its guard either joins that
      very room as the signed-in user or, lacking a connection or a socket, waits without
      redirecting: the redirect to `/auth` is for signed-out visitors, whom the router
      never lets reach the page. */
  lemma RoutedRoomJoinsOrWaits(backendUrl: Option<string>, user: Option<User>, path: string, roomId: string,
                               connected: bool, hasSocket: bool, now: int)
    requires Route(false, backendUrl, user, path) == Show(ChatRoomPage(roomId))
    ensures path == "/room/" + roomId && user.Some?
    ensures var d := JoinGuard(user, connected, hasSocket, roomId, now);
      && (d.Join? <==> connected && hasSocket)
      && (d.Join? ==> d.request == JoinRequest(user.value.email, roomId, user.value.id))
      && (d.Wait? ==> d.redirect.None?)
  {
  }

  /** A second snapshot replaces the first rather than appending to it. */
  lemma SecondSnapshotReplaces(s: RoomState, h1: seq<Message>, h2: seq<Message>)
    ensures OnChatHistory(OnChatHistory(s, h1), h2) == OnChatHistory(s, h2)
    ensures OnChatHistory(OnChatHistory(s, h1), h2).messages == h2
  {
  }

  /** A presence snapshot holds exactly the received list, whatever came before. */
  lemma PresenceIsLatestSnapshot(s: RoomState, u1: seq<OnlineUser>, u2: seq<OnlineUser>)
    ensures OnRoomUsers(OnRoomUsers(s, u1), u2).onlineUsers == u2
  {
  }

  /** The event sequence that delivers `ms` one message at a time. */
  function Deliveries(ms: seq<Message>): (r: seq<RoomEvent>)
    ensures |r| == |ms| && forall k :: 0 <= k < |ms| ==> r[k] == NewMessage(ms[k])
  {
    seq(|ms|, k requires 0 <= k < |ms| => NewMessage(ms[k]))
  }

  /** Messages other than self-welcomes are appended in arrival order. */
  lemma {:induction false} AppendsInOrder(s: RoomState, ms: seq<Message>)
    requires forall k :: 0 <= k < |ms| ==> !IsSelfWelcome(s.self, ms[k])
    ensures Run(s, Deliveries(ms)) == s.(messages := s.messages + ms)
    decreases |ms|
  {
    if |ms| > 0 {
      var s1 := OnMessage(s, ms[0]);
      assert Deliveries(ms)[1..] == Deliveries(ms[1..]);
      AppendsInOrder(s1, ms[1..]);
      assert s1.messages + ms[1..] == s.messages + ms;
    }
  }

  /** A snapshot of `h` followed by `ms`, none of them a self-welcome, leaves exactly `h`
      followed by `ms` in the log. */
  lemma HistoryThenAppends(s: RoomState, h: seq<Message>, ms: seq<Message>)
    requires forall k :: 0 <= k < |ms| ==> !IsSelfWelcome(s.self, ms[k])
    ensures Run(s, [ChatHistory(h)] + Deliveries(ms)).messages == h + ms
  {
    var es := [ChatHistory(h)] + Deliveries(ms);
    assert es[1..] == Deliveries(ms);
    AppendsInOrder(OnChatHistory(s, h), ms);
  }

  /** After mount, an empty history and a message from bob, the log is that message. */
  lemma JoinThenMessage(self: string, ts: string)
    ensures Run(Mount(self), [ChatHistory([]), NewMessage(Message("bob", "hi", ts))]).messages
            == [Message("bob", "hi", ts)]
  {
    HistoryThenAppends(Mount(self), [], [Message("bob", "hi", ts)]);
    assert [ChatHistory([])] + Deliveries([Message("bob", "hi", ts)])
           == [ChatHistory([]), NewMessage(Message("bob", "hi", ts))];
  }

  /** Without a new snapshot the log only grows at its end. */
  lemma {:induction false} LogAppendOnly(s: RoomState, es: seq<RoomEvent>)
    requires forall k :: 0 <= k < |es| ==> !es[k].ChatHistory?
    ensures s.messages <= Run(s, es).messages
    decreases |es|
  {
    if |es| > 0 {
      LogAppendOnly(Step(s, es[0]), es[1..]);
    }
  }

  /** Once captured, the room name never changes again. */
  lemma {:induction false} NameStable(s: RoomState, es: seq<RoomEvent>)
    requires s.roomName != LoadingName
    ensures Run(s, es).roomName == s.roomName
    decreases |es|
  {
    if |es| > 0 {
      NameStable(Step(s, es[0]), es[1..]);
    }
  }

  /** A self-welcome that reports no join or leave: the kind the filter keeps out once the
      room name is known. */
  predicate BareWelcome(self: string, m: Message)
  {
    IsSelfWelcome(self, m) && !IsMembershipNotice(m)
  }

  /** The number of bare self-welcomes in a log. */
  function BareWelcomes(self: string, ms: seq<Message>): nat
    decreases |ms|
  {
    if |ms| == 0 then 0
    else BareWelcomes(self, ms[..|ms| - 1]) + (if BareWelcome(self, ms[|ms| - 1]) then 1 else 0)
  }

  /** Still waiting for the welcome: the one capture that may yet add a bare welcome. */
  function Pending(s: RoomState): nat
  {
    if s.roomName == LoadingName then 1 else 0
  }

  /** A message whose capture is the sentinel 'Loading...' itself: it is logged and yet
      leaves the name unknown. */
  predicate SentinelCapture(e: RoomEvent)
  {
    e.NewMessage? && Captured(e.msg.text) == Some(LoadingName)
  }

  /** The number of sentinel captures among the events. */
  function SentinelCaptures(es: seq<RoomEvent>): nat
    decreases |es|
  {
    if |es| == 0 then 0 else (if SentinelCapture(es[0]) then 1 else 0) + SentinelCaptures(es[1..])
  }

  /** One event other than a snapshot adds a bare self-welcome only by spending the
      pending capture, or by being a sentinel capture, which adds one without spending it. */
  lemma BareWelcomeStep(s: RoomState, e: RoomEvent)
    requires !e.ChatHistory?
    ensures BareWelcomes(s.self, Step(s, e).messages) + Pending(Step(s, e))
            <= BareWelcomes(s.self, s.messages) + Pending(s) + (if SentinelCapture(e) then 1 else 0)
  {
    var r := Step(s, e);
    if r.messages != s.messages {
      assert e.NewMessage? && r.messages == s.messages + [e.msg];
      assert r.messages[..|r.messages| - 1] == s.messages;
    }
  }

  /** Between two snapshots, the self-welcome without join or leave text is logged at
      most once, and not at all once the room name is known; each message whose capture
      is the sentinel 'Loading...' itself allows one more. */
  lemma {:induction false} WelcomeLoggedOnce(s: RoomState, es: seq<RoomEvent>)
    requires forall k :: 0 <= k < |es| ==> !es[k].ChatHistory?
    ensures BareWelcomes(s.self, Run(s, es).messages) + Pending(Run(s, es))
            <= BareWelcomes(s.self, s.messages) + Pending(s) + SentinelCaptures(es)
    ensures SentinelCaptures(es) == 0 ==>
              BareWelcomes(s.self, Run(s, es).messages) <= BareWelcomes(s.self, s.messages) + Pending(s)
    decreases |es|
  {
    if |es| > 0 {
      BareWelcomeStep(s, es[0]);
      var s1 := Step(s, es[0]);
      assert forall k :: 0 <= k < |es[1..]| ==> es[1..][k] == es[k + 1];
      WelcomeLoggedOnce(s1, es[1..]);
    }
  }

  /** The user's own typing status never shows. */
  lemma SelfNeverTyping(s: RoomState, isTyping: bool, now: int)
    ensures OnTypingStatus(s, s.self, isTyping, now) == s
  {
  }

  /** A peer who starts typing at `t` and sends nothing more is still listed at every
      clock reading before `t + TypingExpiry` and removed at that reading. */
  lemma ExpiresAtDeadline(s: RoomState, peer: string, t: int, d: int)
    requires peer != s.self
    ensures var s1 := OnTypingStatus(s, peer, true, t);
      peer in OnClock(s1, t + d).typingPeers <==> d < TypingExpiry
  {
  }

  /** A typing entry outlives the cleanup: with its timeout cancelled, no clock reading
      removes it. */
  lemma StaleAfterCleanup(s: RoomState, peer: string, now: int)
    requires peer in s.typingPeers
    ensures peer in OnClock(OnCleanup(s), now).typingPeers
  {
  }

  /** What the input box hands over on submit is sent unchanged: it is non-blank and
      already trimmed. */
  lemma SubmittedTextIsSent(input: MessageInput.InputState)
    requires MessageInput.Submit(input).sent.Some?
    ensures var text := MessageInput.Submit(input).sent.value;
      SendMessage(true, text) == Some(text) && SendMessage(false, text).None?
  {
    TrimIdempotent(input.text);
  }
}

=== FILE: home_page.dfy ===
/** The lobby: the list of rooms, kept free of duplicates as rooms are announced, the
    create-room form and its validation, and logging out. */
module HomePage {
  import opened Outcomes
  import opened Text
  import opened Wire
  import opened App

  /** The page state. `name` is the create-room input. */
  datatype Lobby = Lobby(rooms: seq<Room>, name: string, error: string, loading: bool)

  /** The state at mount, with the room fetch under way. */
  function Mount(): (r: Lobby)
    ensures r.rooms == [] && r.name == "" && r.error == "" && r.loading
  {
    Lobby([], "", "", true)
  }

  /** Two rooms clash when they share their id or their name. */
  predicate Clash(a: Room, b: Room)
  {
    a.id == b.id || a.name == b.name
  }

  /** Some room of the list clashes with `room`. */
  ghost predicate Listed(rooms: seq<Room>, room: Room)
  {
    exists i :: 0 <= i < |rooms| && Clash(rooms[i], room)
  }

  /** `prevRooms.some(r => r._id === room._id || r.name === room.name)`. */
  function AnyClash(rooms: seq<Room>, room: Room): (b: bool)
    ensures b <==> Listed(rooms, room)
    decreases |rooms|
  {
    if |rooms| == 0 then false
    else if Clash(rooms[0], room) then true
    else
      var b := AnyClash(rooms[1..], room);
      assert Listed(rooms[1..], room) ==> Listed(rooms, room) by {
        if Listed(rooms[1..], room) {
          var i :| 0 <= i < |rooms[1..]| && Clash(rooms[1..][i], room);
          assert Clash(rooms[i + 1], room);
        }
      }
      assert Listed(rooms, room) ==> Listed(rooms[1..], room) by {
        if Listed(rooms, room) {
          var i :| 0 <= i < |rooms| && Clash(rooms[i], room);
          assert i != 0;
          assert Clash(rooms[1..][i - 1], room);
        }
      }
      b
  }

  /** No two rooms of the list share an id or a name. */
  ghost predicate Distinct(rooms: seq<Room>)
  {
    forall i, j :: 0 <= i < j < |rooms| ==> !Clash(rooms[i], rooms[j])
  }

  /** The `newRoomCreated` handler: the room is appended unless a listed room already has
      its id or its name, in which case the list is returned unchanged. */
  function OnNewRoomCreated(rooms: seq<Room>, room: Room): (r: seq<Room>)
    ensures !Listed(rooms, room) ==> r == rooms + [room]
    ensures Listed(rooms, room) ==> r == rooms
    ensures Listed(r, room)
  {
    if AnyClash(rooms, room) then rooms
    else
      assert Clash((rooms + [room])[|rooms|], room);
      rooms + [room]
  }

  /** Delivering the same announcement twice is delivering it once. */
  lemma NewRoomIdempotent(rooms: seq<Room>, room: Room)
    ensures OnNewRoomCreated(OnNewRoomCreated(rooms, room), room) == OnNewRoomCreated(rooms, room)
  {
  }

  /** The handler never introduces a second room with an id or a name already listed. */
  lemma NewRoomKeepsDistinct(rooms: seq<Room>, room: Room)
    requires Distinct(rooms)
    ensures Distinct(OnNewRoomCreated(rooms, room))
  {
    if !Listed(rooms, room) {
      var r := rooms + [room];
      forall i, j | 0 <= i < j < |r|
        ensures !Clash(r[i], r[j])
      {
        if j == |rooms| {
          assert !Clash(rooms[i], room);
        }
      }
    }
  }

  /** The list after a sequence of announcements, in arrival order. */
  function Deliver(rooms: seq<Room>, announced: seq<Room>): seq<Room>
    decreases |announced|
  {
    if |announced| == 0 then rooms else Deliver(OnNewRoomCreated(rooms, announced[0]), announced[1..])
  }

  /** Over any sequence of announcements, starting from any list, the list keeps its
      earlier rooms in order as a prefix, grows by at most one room per announcement, and
      ends up holding, for every announced room, a room with its id or its name. */
  lemma {:induction false} DeliverGrows(rooms: seq<Room>, announced: seq<Room>)
    ensures rooms <= Deliver(rooms, announced)
    ensures |Deliver(rooms, announced)| <= |rooms| + |announced|
    ensures forall k :: 0 <= k < |announced| ==> Listed(Deliver(rooms, announced), announced[k])
    decreases |announced|
  {
    if |announced| > 0 {
      var next := OnNewRoomCreated(rooms, announced[0]);
      DeliverGrows(next, announced[1..]);
      var last := Deliver(next, announced[1..]);
      assert Listed(last, announced[0]) by {
        var i :| 0 <= i < |next| && Clash(next[i], announced[0]);
        assert next <= last;
        assert last[i] == next[i];
      }
      forall k | 0 < k < |announced|
        ensures Listed(last, announced[k])
      {
        assert announced[k] == announced[1..][k - 1];
      }
    }
  }

  /** Over any sequence of announcements a list free of duplicates stays free of them,
      besides growing as `DeliverGrows` states. */
  lemma {:induction false} DeliverKeepsDistinct(rooms: seq<Room>, announced: seq<Room>)
    requires Distinct(rooms)
    ensures Distinct(Deliver(rooms, announced))
    ensures rooms <= Deliver(rooms, announced)
    ensures |Deliver(rooms, announced)| <= |rooms| + |announced|
    ensures forall k :: 0 <= k < |announced| ==> Listed(Deliver(rooms, announced), announced[k])
    decreases |announced|
  {
    DeliverGrows(rooms, announced);
    if |announced| > 0 {
      NewRoomKeepsDistinct(rooms, announced[0]);
      DeliverKeepsDistinct(OnNewRoomCreated(rooms, announced[0]), announced[1..]);
    }
  }

  /** The end of the room fetch: the fetched list replaces the current one wholesale, a
      failure sets its message or 'Failed to fetch rooms.'; either way loading ends. */
  function RoomsFetched(s: Lobby, reply: Reply<seq<Room>>): (r: Lobby)
    ensures !r.loading && r.name == s.name
    ensures reply.Ok? ==> r.rooms == reply.value && r.error == s.error
    ensures reply.Failed? ==> r.rooms == s.rooms && r.error == ErrorText(reply.message, "Failed to fetch rooms.")
    ensures reply.Failed? ==> r.error != ""
  {
    match reply
    case Ok(fetched) => s.(rooms := fetched, loading := false)
    case Failed(message) => s.(error := ErrorText(message, "Failed to fetch rooms."), loading := false)
  }

  /** A failed fetch followed by a successful one shows the new list but keeps the stale
      error, which only a create-room submission or a logout clears. */
  lemma StaleErrorSurvivesRefetch(s: Lobby, message: string, fetched: seq<Room>)
    ensures var r := RoomsFetched(RoomsFetched(s, Failed(message)), Ok(fetched));
      && r.rooms == fetched
      && r.error == ErrorText(message, "Failed to fetch rooms.")
      && r.error != ""
  {
  }

  const EmptyNameError := "Room name cannot be empty."

  /** The state after submitting the create-room form, and the name sent to the server,
      if a request is made. */
  datatype CreateStart = CreateStart(state: Lobby, request: Option<string>)

  /** `handleCreateRoom` up to the request: the error is cleared; a blank name is refused
      with 'Room name cannot be empty.' and no request; otherwise the trimmed name is sent. */
  function SubmitCreateRoom(s: Lobby): (r: CreateStart)
    ensures r.state.rooms == s.rooms && r.state.name == s.name
    ensures r.request.None? <==> AllSpace(s.name)
    ensures r.request.None? ==> r.state.error == EmptyNameError
    ensures r.request.Some? ==> r.state.error == "" && r.request.value == Trim(s.name)
    ensures r.request.Some? ==> r.request.value != [] && Trim(r.request.value) == r.request.value
  {
    if IsBlank(s.name) then CreateStart(s.(error := EmptyNameError), None)
    else
      TrimIdempotent(s.name);
      CreateStart(s.(error := ""), Some(Trim(s.name)))
  }

  /** The settled create-room request: success clears the input and leaves the list to the
      `newRoomCreated` announcement; failure sets its message or 'Failed to create room.'. */
  function CreateRoomReplied(s: Lobby, reply: Reply<Room>): (r: Lobby)
    ensures r.rooms == s.rooms
    ensures reply.Ok? ==> r.name == "" && r.error == s.error
    ensures reply.Failed? ==> r.name == s.name && r.error == ErrorText(reply.message, "Failed to create room.")
  {
    match reply
    case Ok(_) => s.(name := "")
    case Failed(message) => s.(error := ErrorText(message, "Failed to create room."))
  }

  /** A created room is not listed by the reply; it appears, exactly once, when the
      server's `newRoomCreated` announcement arrives, unless a room with its id or name is
      already listed. */
  lemma CreatedRoomListedByAnnouncement(s: Lobby, room: Room)
    requires SubmitCreateRoom(s).request.Some?
    ensures var replied := CreateRoomReplied(SubmitCreateRoom(s).state, Ok(room));
      && replied.rooms == s.rooms && replied.name == "" && replied.error == ""
      && Listed(OnNewRoomCreated(replied.rooms, room), room)
      && (!Listed(s.rooms, room) ==> OnNewRoomCreated(replied.rooms, room) == s.rooms + [room])
  {
  }

  /** `handleJoinRoom`: the path the lobby navigates to for a room. */
  function RoomPath(roomId: string): (r: string)
    ensures |r| == 6 + |roomId| && r[..6] == "/room/" && r[6..] == roomId
  {
    "/room/" + roomId
  }

  /** Joining a room from the lobby reaches the room page for that very room, provided
      its id is a single non-empty path segment; an empty id lands on the catch-all
      redirect to `/`. */
  lemma RoomPathRoundTrip(roomId: string, backendUrl: Option<string>, user: User)
    requires !BackendMissing(backendUrl)
    ensures roomId != "" && '/' !in roomId ==> RoomIdOf(RoomPath(roomId)) == Some(roomId)
    ensures roomId != "" && '/' !in roomId ==>
              Route(false, backendUrl, Some(user), RoomPath(roomId)) == Show(ChatRoomPage(roomId))
    ensures roomId == "" ==> Route(false, backendUrl, Some(user), RoomPath(roomId)) == Redirect("/")
  {
    var p := RoomPath(roomId);
    assert p[..6] == "/room/";
    if roomId == "" {
      assert p == "/room/";
      assert RoomIdOf(p).None?;
    }
  }

  /** A guest is signed in: the user is present and flagged as a guest. */
  predicate SignedInAsGuest(session: Session)
  {
    session.user.Some? && session.user.value.isGuest
  }

  /** The result of a logout: the page, the session, whether the server was asked, and
      where the application navigates, if anywhere. */
  datatype LogoutOutcome = LogoutOutcome(lobby: Lobby, session: Session, calledServer: bool, navigate: Option<string>)

  /** `handleLogout`. The error is cleared first. A guest is signed out locally, without
      asking the server; anyone else is signed out only when the server's logout (whose
      settled `reply` is a parameter) succeeds, and a failure keeps the session and shows
      its message or 'Logout failed.'. */
  function Logout(s: Lobby, session: Session, reply: Reply<()>): (r: LogoutOutcome)
    ensures r.calledServer <==> !SignedInAsGuest(session)
    ensures r.lobby.rooms == s.rooms && r.lobby.name == s.name
    ensures SignedInAsGuest(session) || reply.Ok? ==>
              r.session == UpdateUserAndToken(session, None, None) && r.navigate == Some("/auth")
              && r.lobby.error == ""
    ensures !SignedInAsGuest(session) && reply.Failed? ==>
              r.session == session && r.navigate.None?
              && r.lobby.error == ErrorText(reply.message, "Logout failed.")
  {
    var cleared := s.(error := "");
    if SignedInAsGuest(session) then
      LogoutOutcome(cleared, UpdateUserAndToken(session, None, None), false, Some("/auth"))
    else
      match reply
      case Ok(_) => LogoutOutcome(cleared, UpdateUserAndToken(session, None, None), true, Some("/auth"))
      case Failed(message) =>
        LogoutOutcome(cleared.(error := ErrorText(message, "Logout failed.")), session, true, None)
  }

  /** After a completed logout, reloading the application finds nobody signed in. */
  lemma LogoutForgetsUser(s: Lobby, session: Session, reply: Reply<()>)
    requires SignedInAsGuest(session) || reply.Ok?
    ensures var after := Logout(s, session, reply).session;
      Boot(after.store).user.None? && Boot(after.store).token.None?
  {
  }
}

=== FILE: message_input.dfy ===
/** The message input box and its outbound typing signal: an edge-triggered "typing"
    flag, one debounce deadline that turns it off after an idle interval, explicit
    submission, and the cleanup effect. */
module MessageInput {
  import opened Outcomes
  import opened Text

  /** The idle interval after the last keystroke, in clock units. */
  const DebounceDelay := 1500

  /** `text` is the input's value, `typing` the flag `isTypingRef`, and `debounce` the
      deadline of the pending debounce timer, if any. */
  datatype InputState = InputState(text: string, typing: bool, debounce: Option<int>)

  /** The state after one event, the values it handed to `onTyping`, in order, and the
      text it handed to `onSendMessage`, if any. */
  datatype Outcome = Outcome(state: InputState, signals: seq<bool>, sent: Option<string>)

  /** The state at mount: an empty input, the flag clear and no debounce pending. */
  function Initial(): (r: InputState)
    ensures r.text == "" && !r.typing && r.debounce.None?
  {
    InputState("", false, None)
  }

  /** `handleInputChange`: takes the new value, emits `typing(true)` on the idle-to-typing
      edge only, and replaces any pending debounce with one due `DebounceDelay` from now. */
  function Keystroke(s: InputState, value: string, now: int): (r: Outcome)
    ensures r.state.text == value && r.state.typing
    ensures r.signals == (if s.typing then [] else [true])
    ensures r.state.debounce == Some(now + DebounceDelay)
    ensures r.sent.None?
  {
    Outcome(InputState(value, true, Some(now + DebounceDelay)), if s.typing then [] else [true], None)
  }

  /** The clock reaches `now`: a debounce that is due fires, emits `typing(false)` and
      clears the flag; otherwise nothing happens. */
  function Tick(s: InputState, now: int): (r: Outcome)
    ensures s.debounce.Some? && s.debounce.value <= now ==>
              r.signals == [false] && !r.state.typing && r.state.debounce.None?
    ensures !(s.debounce.Some? && s.debounce.value <= now) ==> r == Outcome(s, [], None)
    ensures r.state.text == s.text && r.sent.None?
  {
    if s.debounce.Some? && s.debounce.value <= now then
      Outcome(s.(typing := false, debounce := None), [false], None)
    else
      Outcome(s, [], None)
  }

  /** `handleSubmit`: a blank text sends nothing and changes nothing; otherwise the trimmed
      text is sent, the input cleared and, if the flag is set, `typing(false)` is emitted,
      the flag cleared and the debounce cancelled. */
  function Submit(s: InputState): (r: Outcome)
    ensures IsBlank(s.text) ==> r == Outcome(s, [], None)
    ensures !IsBlank(s.text) ==> r.sent == Some(Trim(s.text)) && r.state.text == "" && !r.state.typing
    ensures !IsBlank(s.text) ==> r.signals == (if s.typing then [false] else [])
    ensures !IsBlank(s.text) && s.typing ==> r.state.debounce.None?
  {
    if IsBlank(s.text) then Outcome(s, [], None)
    else if s.typing then Outcome(InputState("", false, None), [false], Some(Trim(s.text)))
    else Outcome(InputState("", false, s.debounce), [], Some(Trim(s.text)))
  }

  /** The cleanup of the `[onTyping]` effect exactly as written: it cancels the debounce
      and emits `typing(false)` when the flag is set, but leaves the flag set. React runs
      it on unmount and also whenever `onTyping` changes, which the chat room page causes
      on each of its renders. */
  function CleanupAsWritten(s: InputState): (r: Outcome)
    ensures r.state == s.(debounce := None)
    ensures r.signals == (if s.typing then [false] else [])
  {
    Outcome(s.(debounce := None), if s.typing then [false] else [], None)
  }

  /** The cleanup with the flag cleared as well, so that the component, if it stays
      mounted, starts over from the idle state. */
  function Cleanup(s: InputState): (r: Outcome)
    ensures !r.state.typing && r.state.debounce.None? && r.state.text == s.text
    ensures r.signals == (if s.typing then [false] else [])
    ensures r.sent.None?
  {
    Outcome(s.(typing := false, debounce := None), if s.typing then [false] else [], None)
  }

  /** The events the input reacts to. */
  datatype InputEvent = Key(value: string, at: int) | ClockAt(now: int) | SubmitPressed | CleanupRun

  /** One event, with the corrected cleanup (`asWritten == false`) or the cleanup as
      written (`asWritten == true`). */
  function Step(s: InputState, e: InputEvent, asWritten: bool): Outcome
  {
    match e
    case Key(value, at) => Keystroke(s, value, at)
    case ClockAt(now) => Tick(s, now)
    case SubmitPressed => Submit(s)
    case CleanupRun => if asWritten then CleanupAsWritten(s) else Cleanup(s)
  }

  /** The state after a sequence of events and every value handed to `onTyping`, in order. */
  function Run(s: InputState, es: seq<InputEvent>, asWritten: bool): (InputState, seq<bool>)
    decreases |es|
  {
    if |es| == 0 then (s, [])
    else
      var o := Step(s, es[0], asWritten);
      var rest := Run(o.state, es[1..], asWritten);
      (rest.0, o.signals + rest.1)
  }

  /** The emitted values alternate, starting with `true`, when the first of them follows
      `prior` earlier emissions. */
  ghost predicate AlternatesFrom(prior: nat, signals: seq<bool>)
  {
    forall i :: 0 <= i < |signals| ==> signals[i] == ((prior + i) % 2 == 0)
  }

  /** The state agrees with the signals emitted so far: the flag is set exactly after an
      odd number of signals (the last one was `true`), and a pending debounce implies the
      flag is set. */
  ghost predicate Consistent(s: InputState, emitted: nat)
  {
    && s.typing == (emitted % 2 == 1)
    && (s.debounce.Some? ==> s.typing)
  }

  /** One step with the corrected cleanup keeps the state consistent and emits signals
      that continue the alternation. */
  lemma StepKeepsAlternation(s: InputState, e: InputEvent, emitted: nat)
    requires Consistent(s, emitted)
    ensures var o := Step(s, e, false);
      AlternatesFrom(emitted, o.signals) && Consistent(o.state, emitted + |o.signals|)
  {
  }

  /** With the corrected cleanup, the emitted typing values strictly alternate, starting
      with `true`, for every sequence of keystrokes, clock ticks, submissions and cleanups;
      and a pending debounce always implies the flag is set. */
  lemma {:induction false} SignalsAlternate(s: InputState, es: seq<InputEvent>, emitted: nat)
    requires Consistent(s, emitted)
    ensures AlternatesFrom(emitted, Run(s, es, false).1)
    ensures Consistent(Run(s, es, false).0, emitted + |Run(s, es, false).1|)
    decreases |es|
  {
    if |es| > 0 {
      var o := Step(s, es[0], false);
      StepKeepsAlternation(s, es[0], emitted);
      SignalsAlternate(o.state, es[1..], emitted + |o.signals|);
      var rest := Run(o.state, es[1..], false).1;
      var all := o.signals + rest;
      forall i | 0 <= i < |all|
        ensures all[i] == ((emitted + i) % 2 == 0)
      {
        if i >= |o.signals| {
          assert all[i] == rest[i - |o.signals|];
        }
      }
    }
  }

  /** From the initial state, the emitted values are `true, false, true, ...`. */
  lemma InitialSignalsAlternate(es: seq<InputEvent>)
    ensures AlternatesFrom(0, Run(Initial(), es, false).1)
  {
    SignalsAlternate(Initial(), es, 0);
  }

  /** Without a cleanup among the events the two cleanup variants never come into play,
      so the code as written and the corrected model run identically. */
  lemma {:induction false} RunWithoutCleanup(s: InputState, es: seq<InputEvent>)
    requires forall k :: 0 <= k < |es| ==> !es[k].CleanupRun?
    ensures Run(s, es, true) == Run(s, es, false)
    decreases |es|
  {
    if |es| > 0 {
      assert !es[0].CleanupRun?;
      assert forall k :: 0 <= k < |es[1..]| ==> es[1..][k] == es[k + 1];
      RunWithoutCleanup(Step(s, es[0], true).state, es[1..]);
    }
  }

  /** As written, too, the emitted values alternate from the initial state as long as no
      cleanup runs while the component stays mounted. */
  lemma AsWrittenAlternatesWithoutCleanup(es: seq<InputEvent>)
    requires forall k :: 0 <= k < |es| ==> !es[k].CleanupRun?
    ensures AlternatesFrom(0, Run(Initial(), es, true).1)
  {
    RunWithoutCleanup(Initial(), es);
    InitialSignalsAlternate(es);
  }

  /** As written, a pending debounce still implies the flag is set, whatever the events:
      the cleanup as written cancels the debounce and so cannot break this. */
  lemma {:induction false} AsWrittenPendingImpliesTyping(s: InputState, es: seq<InputEvent>)
    requires s.debounce.Some? ==> s.typing
    ensures Run(s, es, true).0.debounce.Some? ==> Run(s, es, true).0.typing
    decreases |es|
  {
    if |es| > 0 {
      AsWrittenPendingImpliesTyping(Step(s, es[0], true).state, es[1..]);
    }
  }

  /** A run is its first step followed by the run of the rest. */
  lemma RunStep(s: InputState, es: seq<InputEvent>, asWritten: bool, last: InputState, later: seq<bool>)
    requires |es| > 0 && Run(Step(s, es[0], asWritten).state, es[1..], asWritten) == (last, later)
    ensures Run(s, es, asWritten) == (last, Step(s, es[0], asWritten).signals + later)
  {
  }

  /** A run of a concatenation is the run of the second part from where the first ended,
      with the signals of both in order. */
  lemma {:induction false} RunAppend(s: InputState, xs: seq<InputEvent>, ys: seq<InputEvent>, asWritten: bool)
    ensures var first := Run(s, xs, asWritten);
      var second := Run(first.0, ys, asWritten);
      Run(s, xs + ys, asWritten) == (second.0, first.1 + second.1)
    decreases |xs|
  {
    if |xs| > 0 {
      var o := Step(s, xs[0], asWritten);
      var first := Run(o.state, xs[1..], asWritten);
      var second := Run(first.0, ys, asWritten);
      assert Run(s, xs + ys, asWritten) == (second.0, o.signals + (first.1 + second.1)) by {
        RunAppend(o.state, xs[1..], ys, asWritten);
        assert (xs + ys)[0] == xs[0];
        assert (xs + ys)[1..] == xs[1..] + ys;
        RunStep(s, xs + ys, asWritten, second.0, first.1 + second.1);
      }
      assert Run(s, xs, asWritten) == (first.0, o.signals + first.1) by {
        RunStep(s, xs, asWritten, first.0, first.1);
      }
      assert o.signals + (first.1 + second.1) == (o.signals + first.1) + second.1;
    } else {
      assert xs + ys == ys;
      var second := Run(s, ys, asWritten);
      assert Run(s, xs, asWritten).1 + second.1 == second.1;
    }
  }

  /** One keystroke of a burst: the input's value after it and the clock reading at it. */
  datatype Press = Press(value: string, at: int)

  /** A burst as events: the clock reaches each keystroke's time, then the key is typed. */
  function Typed(ps: seq<Press>): (es: seq<InputEvent>)
    ensures |es| == 2 * |ps|
    decreases |ps|
  {
    if |ps| == 0 then [] else [ClockAt(ps[0].at), Key(ps[0].value, ps[0].at)] + Typed(ps[1..])
  }

  /** Every keystroke after the first comes before the previous one's debounce is due. */
  predicate WithinWindow(ps: seq<Press>)
  {
    forall k :: 0 < k < |ps| ==> ps[k].at < ps[k - 1].at + DebounceDelay
  }

  /** While the flag is set and the debounce is not yet due, a burst emits nothing; the
      text and the debounce deadline follow its last keystroke. */
  lemma {:induction false} TypingThroughBurst(s: InputState, ps: seq<Press>, asWritten: bool)
    requires s.typing && s.debounce.Some?
    requires |ps| > 0 ==> ps[0].at < s.debounce.value
    requires WithinWindow(ps)
    ensures |ps| == 0 ==> Run(s, Typed(ps), asWritten) == (s, [])
    ensures |ps| > 0 ==>
      Run(s, Typed(ps), asWritten) == (InputState(ps[|ps| - 1].value, true, Some(ps[|ps| - 1].at + DebounceDelay)), [])
    decreases |ps|
  {
    if |ps| > 0 {
      var es := Typed(ps);
      var next := InputState(ps[0].value, true, Some(ps[0].at + DebounceDelay));
      var rest := ps[1..];
      assert WithinWindow(rest) by {
        forall k | 0 < k < |rest|
          ensures rest[k].at < rest[k - 1].at + DebounceDelay
        {
          assert rest[k] == ps[k + 1] && rest[k - 1] == ps[k];
        }
      }
      TypingThroughBurst(next, rest, asWritten);
      var last := Run(next, Typed(rest), asWritten).0;
      assert es[2..] == Typed(rest);
      assert es[1..][1..] == es[2..];
      assert Step(s, es[1], asWritten) == Outcome(next, [], None);
      RunStep(s, es[1..], asWritten, last, []);
      var quiet: seq<bool> := [];
      assert quiet + quiet == quiet;
      assert Run(s, es[1..], asWritten) == (last, []);
      assert Step(s, es[0], asWritten) == Outcome(s, [], None);
      RunStep(s, es, asWritten, last, []);
      if |rest| > 0 {
        assert rest[|rest| - 1] == ps[|ps| - 1];
      }
    }
  }

  /** From an idle state a burst emits exactly one `typing(true)`, at its first keystroke,
      and leaves the flag set with the debounce due 1500 after the last keystroke. */
  lemma {:induction false} BurstFromIdle(s: InputState, ps: seq<Press>, asWritten: bool)
    requires !s.typing && s.debounce.None?
    requires |ps| > 0 && WithinWindow(ps)
    ensures Run(s, Typed(ps), asWritten)
            == (InputState(ps[|ps| - 1].value, true, Some(ps[|ps| - 1].at + DebounceDelay)), [true])
  {
    var es := Typed(ps);
    var next := InputState(ps[0].value, true, Some(ps[0].at + DebounceDelay));
    var typed := InputState(ps[|ps| - 1].value, true, Some(ps[|ps| - 1].at + DebounceDelay));
    var rest := ps[1..];
    assert WithinWindow(rest) by {
      forall k | 0 < k < |rest|
        ensures rest[k].at < rest[k - 1].at + DebounceDelay
      {
        assert rest[k] == ps[k + 1] && rest[k - 1] == ps[k];
      }
    }
    TypingThroughBurst(next, rest, asWritten);
    if |rest| > 0 {
      assert rest[|rest| - 1] == ps[|ps| - 1];
    }
    assert Run(next, Typed(rest), asWritten) == (typed, []);
    assert es[2..] == Typed(rest);
    assert es[1..][1..] == es[2..];
    assert Step(s, es[1], asWritten) == Outcome(next, [true], None);
    RunStep(s, es[1..], asWritten, typed, []);
    assert [true] + [] == [true];
    assert Step(s, es[0], asWritten) == Outcome(s, [], None);
    RunStep(s, es, asWritten, typed, [true]);
    assert [] + [true] == [true];
  }

  /** From an idle state, a burst of keystrokes, each typed before the previous one's
      debounce is due, emits exactly one `typing(true)`; when the clock then reaches the
      last keystroke's deadline, exactly one `typing(false)` follows and the flag is
      clear. The cleanup variant does not matter, since no cleanup runs. */
  lemma BurstThenIdle(s: InputState, ps: seq<Press>, asWritten: bool)
    requires !s.typing && s.debounce.None?
    requires |ps| > 0 && WithinWindow(ps)
    ensures var last := ps[|ps| - 1];
      Run(s, Typed(ps) + [ClockAt(last.at + DebounceDelay)], asWritten)
        == (InputState(last.value, false, None), [true, false])
  {
    var last := ps[|ps| - 1];
    var typed := InputState(last.value, true, Some(last.at + DebounceDelay));
    var idle := InputState(last.value, false, None);
    var tail := [ClockAt(last.at + DebounceDelay)];
    BurstFromIdle(s, ps, asWritten);
    assert Run(idle, tail[1..], asWritten) == (idle, []);
    RunStep(typed, tail, asWritten, idle, []);
    assert [false] + [] == [false];
    RunAppend(s, Typed(ps), tail, asWritten);
    assert [true] + [false] == [true, false];
  }

  /** Keystroke, a re-render of the parent page (which runs the cleanup), another
      keystroke, and one idle interval. */
  function RerenderWhileTyping(): (es: seq<InputEvent>)
    ensures |es| == 4
  {
    [Key("h", 0), CleanupRun, Key("hi", 10), ClockAt(10 + DebounceDelay)]
  }

  /** As written, the re-render emits `typing(false)` but keeps the flag, so the second
      keystroke emits no `typing(true)` and its debounce emits a second `typing(false)`. */
  lemma AsWrittenTrace()
    ensures Run(Initial(), RerenderWhileTyping(), true) == (InputState("hi", false, None), [true, false, false])
  {
    var es := RerenderWhileTyping();
    var done := InputState("hi", false, None);
    assert Run(done, es[4..], true) == (done, []);
    assert es[3..][1..] == es[4..];
    RunStep(InputState("hi", true, Some(10 + DebounceDelay)), es[3..], true, done, []);
    assert [false] + [] == [false];
    assert es[2..][1..] == es[3..];
    RunStep(InputState("h", true, None), es[2..], true, done, [false]);
    assert [] + [false] == [false];
    assert es[1..][1..] == es[2..];
    RunStep(InputState("h", true, Some(DebounceDelay)), es[1..], true, done, [false]);
    assert [false] + [false] == [false, false];
    RunStep(Initial(), es, true, done, [false, false]);
    assert [true] + [false, false] == [true, false, false];
  }

  /** With the corrected cleanup the same events emit `true, false, true, false`. */
  lemma CorrectedTrace()
    ensures Run(Initial(), RerenderWhileTyping(), false) == (InputState("hi", false, None), [true, false, true, false])
  {
    var es := RerenderWhileTyping();
    var done := InputState("hi", false, None);
    assert Run(done, es[4..], false) == (done, []);
    assert es[3..][1..] == es[4..];
    RunStep(InputState("hi", true, Some(10 + DebounceDelay)), es[3..], false, done, []);
    assert [false] + [] == [false];
    assert es[2..][1..] == es[3..];
    RunStep(InputState("h", false, None), es[2..], false, done, [false]);
    assert [true] + [false] == [true, false];
    assert es[1..][1..] == es[2..];
    RunStep(InputState("h", true, Some(DebounceDelay)), es[1..], false, done, [true, false]);
    assert [false] + [true, false] == [false, true, false];
    RunStep(Initial(), es, false, done, [false, true, false]);
    assert [true] + [false, true, false] == [true, false, true, false];
  }

  /** The cleanup as written breaks the alternation that the corrected cleanup keeps:
      the same events emit two `typing(false)` in a row. */
  lemma CleanupAsWrittenRepeatsFalse()
    ensures var trace := Run(Initial(), RerenderWhileTyping(), true).1;
      exists i :: 0 <= i < |trace| - 1 && !trace[i] && !trace[i + 1]
    ensures !AlternatesFrom(0, Run(Initial(), RerenderWhileTyping(), true).1)
    ensures AlternatesFrom(0, Run(Initial(), RerenderWhileTyping(), false).1)
  {
    AsWrittenTrace();
    CorrectedTrace();
    var t := Run(Initial(), RerenderWhileTyping(), true).1;
    assert !t[1] && !t[2];
    assert t[2] != ((0 + 2) % 2 == 0);
  }
}

=== FILE: message_list.dfy ===
/** How the message list presents each message of the log. */
module MessageList {
  import opened Outcomes
  import opened Wire

  /** The three styles of a list item. */
  datatype Style = SystemStyle | MineStyle | OtherStyle

  /** The CSS class of each style; distinct styles get distinct classes. */
  function ClassName(style: Style): (r: string)
    ensures r == "system-message" <==> style == SystemStyle
    ensures r == "my-message" <==> style == MineStyle
    ensures r == "other-message" <==> style == OtherStyle
  {
    match style
    case SystemStyle => "system-message"
    case MineStyle => "my-message"
    case OtherStyle => "other-message"
  }

  /** One rendered `<li>`: its style, its sender label (none for system notices), the
      text and the raw timestamp. */
  datatype Item = Item(style: Style, senderLabel: Option<string>, text: string, timestamp: string)

  /** Server notices first, then the signed-in user's own messages, then everyone else's. */
  function StyleOf(m: Message, currentEmail: Option<string>): (r: Style)
    ensures r == SystemStyle <==> m.senderUsername == SystemSender
    ensures r == MineStyle <==> m.senderUsername != SystemSender && currentEmail == Some(m.senderUsername)
    ensures r == OtherStyle <==> m.senderUsername != SystemSender && currentEmail != Some(m.senderUsername)
  {
    if m.senderUsername == SystemSender then SystemStyle
    else if currentEmail == Some(m.senderUsername) then MineStyle
    else OtherStyle
  }

  /** System notices carry no label; the user's own messages are labelled `You`; others
      carry the sender's name. */
  function LabelOf(m: Message, currentEmail: Option<string>): (r: Option<string>)
    ensures r.None? <==> m.senderUsername == SystemSender
    ensures r.Some? ==> r.value == (if currentEmail == Some(m.senderUsername) then "You" else m.senderUsername)
  {
    if m.senderUsername == SystemSender then None
    else if currentEmail == Some(m.senderUsername) then Some("You")
    else Some(m.senderUsername)
  }

  /** The item for one message. */
  function ItemOf(m: Message, currentEmail: Option<string>): Item
  {
    Item(StyleOf(m, currentEmail), LabelOf(m, currentEmail), m.text, m.timestamp)
  }

  /** `messages.map(...)`: one item per message, in log order. */
  function Render(messages: seq<Message>, currentEmail: Option<string>): (r: seq<Item>)
    ensures |r| == |messages|
    ensures forall i :: 0 <= i < |messages| ==> r[i] == ItemOf(messages[i], currentEmail)
  {
    if |messages| == 0 then []
    else [ItemOf(messages[0], currentEmail)] + Render(messages[1..], currentEmail)
  }

  /** A message appended to the log adds one item at the end and leaves the earlier
      items as they were. */
  lemma RenderAppend(messages: seq<Message>, m: Message, currentEmail: Option<string>)
    ensures Render(messages + [m], currentEmail) == Render(messages, currentEmail) + [ItemOf(m, currentEmail)]
  {
    var a := Render(messages + [m], currentEmail);
    var b := Render(messages, currentEmail) + [ItemOf(m, currentEmail)];
    assert forall i :: 0 <= i < |a| ==> a[i] == b[i];
  }

  /** The class and the label agree on who wrote a message: a system notice gets the
      system class and no label, the user's own message the `my-message` class and the
      label `You`, anyone else's the `other-message` class and the sender's name. */
  lemma ClassAndLabelAgree(m: Message, currentEmail: Option<string>)
    ensures var cls := ClassName(StyleOf(m, currentEmail));
      var shown := LabelOf(m, currentEmail);
      && (cls == "system-message" <==> shown.None?)
      && (cls == "my-message" <==> shown == Some("You") && m.senderUsername != SystemSender && currentEmail == Some(m.senderUsername))
      && (cls == "other-message" ==> shown == Some(m.senderUsername))
  {
  }
}

=== FILE: outcomes.dfy ===
/** Small failure-carrying datatypes shared by every module of the model. */
module Outcomes {

  /** A JavaScript value that may be `null`/`undefined`. */
  datatype Option<+T> = None | Some(value: T)

  /** The settled result of an awaited REST helper: the helper either resolves with a
      payload or throws an `Error` whose `message` is carried here. */
  datatype Reply<+T> = Ok(value: T) | Failed(message: string)

  /** `err.message || fallback`: an empty message is falsy and yields the fallback. */
  function ErrorText(message: string, fallback: string): (r: string)
    ensures r == message || r == fallback
    ensures r == "" ==> fallback == ""
    ensures message != "" ==> r == message
  {
    if message != "" then message else fallback
  }
}

=== FILE: socket_context.dfy ===
/** The connection bookkeeping of the socket provider: whether the socket is connected
    and how many connection errors have been counted since the last successful connect.
    Reconnecting itself is done by the socket library and is not modelled. */
module SocketContext {

  /** The cap on the counted connection errors (also handed to the library). */
  const MaxReconnectAttempts := 5
  /** The delay between the library's reconnection attempts, in clock units. */
  const ReconnectInterval := 2000

  datatype Connection = Connection(connected: bool, attempts: nat)

  /** The lifecycle events the provider listens to. */
  datatype SocketEvent =
    | Connect
    | Disconnect(reason: string)
    | ConnectError(message: string)
    | ServerError(message: string)

  /** The state at provider mount. */
  function Initial(): (r: Connection)
    ensures !r.connected && r.attempts == 0
  {
    Connection(false, 0)
  }

  /** The provider's handler for one event. */
  function Step(c: Connection, e: SocketEvent): (r: Connection)
    ensures e.Connect? ==> r.connected && r.attempts == 0
    ensures e.Disconnect? ==> !r.connected && r.attempts == c.attempts
    ensures e.ConnectError? ==> r.connected == c.connected
    ensures e.ConnectError? && c.attempts < MaxReconnectAttempts ==> r.attempts == c.attempts + 1
    ensures e.ConnectError? && c.attempts >= MaxReconnectAttempts ==> r == c
    ensures e.ServerError? ==> r == c
    ensures r.attempts <= c.attempts + 1
  {
    match e
    case Connect => Connection(true, 0)
    case Disconnect(_) => c.(connected := false)
    case ConnectError(_) =>
      if c.attempts < MaxReconnectAttempts then c.(attempts := c.attempts + 1) else c
    case ServerError(_) => c
  }

  /** The state after a sequence of events, in arrival order. */
  function Run(c: Connection, es: seq<SocketEvent>): Connection
    decreases |es|
  {
    if |es| == 0 then c else Run(Step(c, es[0]), es[1..])
  }

  /** The counter never leaves 0..5, whatever events arrive. */
  lemma {:induction false} AttemptsStayBounded(c: Connection, es: seq<SocketEvent>)
    requires c.attempts <= MaxReconnectAttempts
    ensures Run(c, es).attempts <= MaxReconnectAttempts
    decreases |es|
  {
    if |es| > 0 {
      AttemptsStayBounded(Step(c, es[0]), es[1..]);
    }
  }

  /** From any state with at most 5 attempts counted, `n` consecutive connection errors
      add `n` attempts up to the cap of 5, after which further errors change nothing; the
      connected flag stays as it was. */
  lemma {:induction false} ErrorsSaturate(c: Connection, n: nat, es: seq<SocketEvent>)
    requires |es| == n && forall i :: 0 <= i < n ==> es[i].ConnectError?
    requires c.attempts <= MaxReconnectAttempts
    ensures Run(c, es).connected == c.connected
    ensures Run(c, es).attempts ==
      (if c.attempts + n <= MaxReconnectAttempts then c.attempts + n else MaxReconnectAttempts)
    decreases n
  {
    if n > 0 {
      ErrorsSaturate(Step(c, es[0]), n - 1, es[1..]);
    }
  }

  /** A disconnect, for any reason, followed by a successful connect restores a
      connected socket with a fresh counter: nothing the handlers do depends on the
      disconnect reason. */
  lemma DisconnectReasonIrrelevant(c: Connection, reason1: string, reason2: string)
    ensures Step(c, Disconnect(reason1)) == Step(c, Disconnect(reason2))
    ensures Step(Step(c, Disconnect(reason1)), Connect) == Connection(true, 0)
  {
  }
}

=== FILE: text.dfy ===
/** The JavaScript string operations the client relies on: `String.prototype.trim`,
    `String.prototype.includes` and `Array.prototype.join`. */
module Text {

  /** The characters `trim` removes: ECMAScript WhiteSpace and LineTerminator code points. */
  predicate IsSpace(c: char)
  {
    || c == ' ' || c == '\t' || c == '\n' || c == '\r'
    || c == '\U{000B}' || c == '\U{000C}' || c == '\U{00A0}' || c == '\U{1680}'
    || ('\U{2000}' <= c <= '\U{200A}')
    || c == '\U{2028}' || c == '\U{2029}' || c == '\U{202F}' || c == '\U{205F}'
    || c == '\U{3000}' || c == '\U{FEFF}'
  }

  /** Every character of `s[lo..hi]` is white space. */
  ghost predicate SpaceBetween(s: string, lo: int, hi: int)
  {
    0 <= lo <= hi <= |s| && forall k :: lo <= k < hi ==> IsSpace(s[k])
  }

  /** Every character of `s` is white space (this includes the empty string). */
  ghost predicate AllSpace(s: string)
  {
    SpaceBetween(s, 0, |s|)
  }

  /** `s[i..j]` is what trimming `s` keeps: everything outside it is white space and,
      when it is non-empty, it begins and ends with a non-space character. */
  ghost predicate TrimmedSlice(s: string, i: int, j: int)
  {
    && 0 <= i <= j <= |s|
    && SpaceBetween(s, 0, i)
    && SpaceBetween(s, j, |s|)
    && (i < j ==> !IsSpace(s[i]) && !IsSpace(s[j - 1]))
  }

  /** The index of the first non-space character at or after `i` (or `|s|`). */
  function SkipLeading(s: string, i: nat): (k: nat)
    requires i <= |s|
    ensures i <= k <= |s|
    ensures SpaceBetween(s, i, k)
    ensures k == |s| || !IsSpace(s[k])
    decreases |s| - i
  {
    if i < |s| && IsSpace(s[i]) then SkipLeading(s, i + 1) else i
  }

  /** The end of the last non-space character in `s[lo..j]` (or `lo`). */
  function SkipTrailing(s: string, lo: nat, j: nat): (k: nat)
    requires lo <= j <= |s|
    ensures lo <= k <= j
    ensures SpaceBetween(s, k, j)
    ensures k == lo || !IsSpace(s[k - 1])
    decreases j - lo
  {
    if lo < j && IsSpace(s[j - 1]) then SkipTrailing(s, lo, j - 1) else j
  }

  /** `s.trim()`: the slice of `s` between its leading and its trailing white space. */
  function Trim(s: string): (r: string)
    ensures exists i, j :: TrimmedSlice(s, i, j) && r == s[i..j]
    ensures r == [] <==> AllSpace(s)
  {
    var i := SkipLeading(s, 0);
    var j := SkipTrailing(s, i, |s|);
    assert TrimmedSlice(s, i, j);
    s[i..j]
  }

  /** `!s.trim()`: the string is empty or white space only. */
  predicate IsBlank(s: string)
  {
    Trim(s) == []
  }

  /** Trimming determines exactly one slice: the trimmed slice of a string is unique. */
  lemma TrimmedSliceUnique(s: string, i: int, j: int, i': int, j': int)
    requires TrimmedSlice(s, i, j) && TrimmedSlice(s, i', j')
    ensures s[i..j] == s[i'..j']
  {
    assert forall k :: 0 <= k < i ==> s[k] == s[..i][k];
    assert forall k :: 0 <= k < i' ==> s[k] == s[..i'][k];
    assert forall k :: j <= k < |s| ==> s[k] == s[j..][k - j];
    assert forall k :: j' <= k < |s| ==> s[k] == s[j'..][k - j'];
  }

  /** Trimming twice is trimming once, so a caller that trims an already trimmed text
      sends the same text. */
  lemma TrimIdempotent(s: string)
    ensures Trim(Trim(s)) == Trim(s)
  {
    var t := Trim(s);
    var i, j :| TrimmedSlice(s, i, j) && t == s[i..j];
    assert TrimmedSlice(t, 0, |t|);
    var i', j' :| TrimmedSlice(t, i', j') && Trim(t) == t[i'..j'];
    TrimmedSliceUnique(t, 0, |t|, i', j');
  }

  /** `s.includes(sub)`, searching from the left. */
  predicate Contains(s: string, sub: string)
    decreases |s|
  {
    sub <= s || (|s| > 0 && Contains(s[1..], sub))
  }

  /** `sub` occurs in `s` starting at index `i`. */
  ghost predicate OccursAt(s: string, sub: string, i: int)
  {
    0 <= i && i + |sub| <= |s| && s[i..i + |sub|] == sub
  }

  /** An occurrence at the front is a prefix. */
  lemma OccursAtFront(s: string, sub: string)
    ensures OccursAt(s, sub, 0) <==> sub <= s
  {
  }

  /** An occurrence past the first character is an occurrence in the tail, one index
      earlier. */
  lemma OccursInTail(s: string, sub: string, i: int)
    requires 0 < i && |s| > 0
    ensures OccursAt(s, sub, i) <==> OccursAt(s[1..], sub, i - 1)
  {
    if i + |sub| <= |s| {
      assert s[1..][i - 1..i - 1 + |sub|] == s[i..i + |sub|];
    }
  }

  /** The search agrees with the definition of substring occurrence, in both directions. */
  lemma {:induction false} ContainsIffOccurs(s: string, sub: string)
    ensures Contains(s, sub) <==> exists i :: OccursAt(s, sub, i)
    decreases |s|
  {
    OccursAtFront(s, sub);
    if sub <= s {
      assert OccursAt(s, sub, 0);
    } else if |s| > 0 {
      ContainsIffOccurs(s[1..], sub);
      if Contains(s[1..], sub) {
        var i :| OccursAt(s[1..], sub, i);
        OccursInTail(s, sub, i + 1);
        assert OccursAt(s, sub, i + 1);
      } else {
        forall i | 0 < i
          ensures !OccursAt(s, sub, i)
        {
          OccursInTail(s, sub, i);
        }
      }
    }
  }

  /** `xs.join(sep)`. */
  function Join(xs: seq<string>, sep: string): string
  {
    if |xs| == 0 then ""
    else if |xs| == 1 then xs[0]
    else xs[0] + sep + Join(xs[1..], sep)
  }

  /** Joining with one more element appends the separator and that element, so the
      elements appear in the joined text in their list order. */
  lemma {:induction false} JoinSnoc(xs: seq<string>, x: string, sep: string)
    requires |xs| >= 1
    ensures Join(xs + [x], sep) == Join(xs, sep) + sep + x
    decreases |xs|
  {
    if |xs| == 1 {
      assert (xs + [x])[1..] == [x];
    } else {
      assert (xs + [x])[1..] == xs[1..] + [x];
      JoinSnoc(xs[1..], x, sep);
    }
  }
}

=== FILE: typing_indicator.dfy ===
/** The line under the message list that names the peers who are typing. */
module TypingIndicator {
  import opened Outcomes
  import opened Text

  const Separator := ", "

  /** The sentence shown for the typing peers, in the order given; nothing for none. */
  function Sentence(names: seq<string>): (r: Option<string>)
    ensures r.None? <==> names == []
  {
    if |names| == 0 then None
    else if |names| == 1 then Some(names[0] + " is typing...")
    else Some(Join(names, Separator) + " are typing...")
  }

  /** One name is reported in the singular, two or more as a comma-separated list in
      the plural. */
  lemma SentenceShape(names: seq<string>)
    requires names != []
    ensures Sentence(names) ==
      Some(Join(names, Separator) + (if |names| == 1 then " is typing..." else " are typing..."))
  {
  }

  /** A peer who starts typing last is named last, after everyone already listed. */
  lemma {:induction false} SentenceAppendsNewcomer(names: seq<string>, name: string)
    requires names != []
    ensures Sentence(names + [name]) == Some(Join(names, Separator) + Separator + name + " are typing...")
  {
    JoinSnoc(names, name, Separator);
  }

  /** Every name of the list occurs in the joined text. */
  lemma {:induction false} JoinNamesEach(names: seq<string>, i: nat)
    requires i < |names|
    ensures exists p :: OccursAt(Join(names, Separator), names[i], p)
    decreases i
  {
    var j := Join(names, Separator);
    if i == 0 {
      assert j[..|names[0]|] == names[0];
      assert OccursAt(j, names[0], 0);
    } else {
      var rest := Join(names[1..], Separator);
      JoinNamesEach(names[1..], i - 1);
      var p :| OccursAt(rest, names[1..][i - 1], p);
      var off := |names[0] + Separator|;
      assert j == names[0] + Separator + rest;
      assert j[off + p..off + p + |names[i]|] == rest[p..p + |names[i]|];
      assert OccursAt(j, names[i], off + p);
    }
  }

  /** Every typing peer is named in the sentence. */
  lemma EveryTypistNamed(names: seq<string>, i: nat)
    requires i < |names|
    ensures Sentence(names).Some? && Contains(Sentence(names).value, names[i])
  {
    JoinNamesEach(names, i);
    var j := Join(names, Separator);
    var p :| OccursAt(j, names[i], p);
    var s := Sentence(names).value;
    SentenceShape(names);
    assert s[p..p + |names[i]|] == j[p..p + |names[i]|];
    assert OccursAt(s, names[i], p);
    ContainsIffOccurs(s, names[i]);
  }
}

=== FILE: welcome_pattern.dfy ===
/** The regular expression `/Welcome to (.*?)!,/` with which the chat room page reads
    the room name out of the server's welcome text.  `String.prototype.match` without
    the global flag returns the leftmost match, and the lazy group `(.*?)` takes the
    shortest run of non-line-terminator characters that is followed by `!,`. */
module WelcomePattern {
  import opened Outcomes

  const Prefix := "Welcome to "
  const Closer := "!,"

  /** The characters the regular-expression `.` does not match. */
  predicate IsLineTerminator(c: char)
  {
    c == '\n' || c == '\r' || c == '\U{2028}' || c == '\U{2029}'
  }

  /** `Welcome to ` occurs at index `i`. */
  ghost predicate Opens(s: string, i: int)
  {
    0 <= i && i + |Prefix| <= |s| && s[i..i + |Prefix|] == Prefix
  }

  /** A group starting at `j` may end at `e`: `!,` follows at `e` and `s[j..e]` holds
      no line terminator. */
  ghost predicate ClosesAt(s: string, j: int, e: int)
  {
    && 0 <= j <= e
    && e + |Closer| <= |s|
    && s[e..e + |Closer|] == Closer
    && forall m :: j <= m < e ==> !IsLineTerminator(s[m])
  }

  /** The pattern matches at index `i` with `g` as the captured group. */
  ghost predicate MatchesAt(s: string, i: int, g: string)
  {
    && Opens(s, i)
    && ClosesAt(s, i + |Prefix|, i + |Prefix| + |g|)
    && s[i + |Prefix|..i + |Prefix| + |g|] == g
  }

  /** The group of a match that starts at `i` may end at `e`. */
  ghost predicate GroupClosesAt(s: string, i: int, e: int)
  {
    ClosesAt(s, i + |Prefix|, e)
  }

  /** Some group makes the pattern match at `i`. */
  ghost predicate HasMatchAt(s: string, i: int)
  {
    Opens(s, i) && exists e :: GroupClosesAt(s, i, e)
  }

  /** What `match` returns: the match that starts leftmost, with the shortest group there. */
  ghost predicate LeftmostLazyMatch(s: string, i: int, g: string)
  {
    && MatchesAt(s, i, g)
    && (forall i', g' :: 0 <= i' < i ==> !MatchesAt(s, i', g'))
    && (forall g' :: MatchesAt(s, i, g') ==> |g| <= |g'|)
  }

  /** Where a match is found: the index of `Welcome to ` and the bounds of the group. */
  datatype Span = Span(start: nat, groupStart: nat, groupEnd: nat)

  /** Lazy expansion of the group that starts at `j`, having already grown it to `k`. */
  function GroupEnd(s: string, j: nat, k: nat): (r: Option<nat>)
    requires j <= k <= |s|
    requires forall m :: j <= m < k ==> !IsLineTerminator(s[m])
    requires forall e :: j <= e < k ==> !ClosesAt(s, j, e)
    ensures r.Some? ==> ClosesAt(s, j, r.value)
    ensures r.Some? ==> forall e :: j <= e < r.value ==> !ClosesAt(s, j, e)
    ensures r.None? ==> forall e :: j <= e ==> !ClosesAt(s, j, e)
    decreases |s| - k
  {
    if k + |Closer| <= |s| && s[k..k + |Closer|] == Closer then Some(k)
    else if k < |s| && !IsLineTerminator(s[k]) then GroupEnd(s, j, k + 1)
    else None
  }

  /** Tries every start index from `i` rightwards. */
  function MatchFrom(s: string, i: nat): (r: Option<Span>)
    requires i <= |s|
    ensures r.Some? ==> i <= r.value.start && Opens(s, r.value.start)
    ensures r.Some? ==> r.value.groupStart == r.value.start + |Prefix|
    ensures r.Some? ==> ClosesAt(s, r.value.groupStart, r.value.groupEnd)
    ensures r.Some? ==> forall e :: r.value.groupStart <= e < r.value.groupEnd
                          ==> !ClosesAt(s, r.value.groupStart, e)
    ensures r.Some? ==> forall i' :: i <= i' < r.value.start ==> !HasMatchAt(s, i')
    ensures r.None? ==> forall i' :: i <= i' ==> !HasMatchAt(s, i')
    decreases |s| - i
  {
    if i + |Prefix| > |s| then None
    else if s[i..i + |Prefix|] == Prefix then
      match GroupEnd(s, i + |Prefix|, i + |Prefix|)
      case Some(e) => Some(Span(i, i + |Prefix|, e))
      case None => MatchFrom(s, i + 1)
    else MatchFrom(s, i + 1)
  }

  /** `text.match(/Welcome to (.*?)!,/)?.[1]`: the captured group, if the pattern matches. */
  function MatchWelcome(s: string): (r: Option<string>)
    ensures r.Some? ==> exists i :: LeftmostLazyMatch(s, i, r.value)
    ensures r.None? <==> forall i, g :: !MatchesAt(s, i, g)
  {
    match MatchFrom(s, 0)
    case Some(sp) =>
      FoundSpanIsLeftmostLazy(s, sp);
      Some(s[sp.groupStart..sp.groupEnd])
    case None =>
      NoSpanNoMatch(s);
      None
  }

  /** The span the search finds is the leftmost-lazy match. */
  lemma FoundSpanIsLeftmostLazy(s: string, sp: Span)
    requires MatchFrom(s, 0) == Some(sp)
    ensures sp.groupStart <= sp.groupEnd <= |s|
    ensures LeftmostLazyMatch(s, sp.start, s[sp.groupStart..sp.groupEnd])
  {
    var g := s[sp.groupStart..sp.groupEnd];
    FoundSpanMatches(s, sp, g);
    FoundSpanShortest(s, sp, |g|);
    FoundSpanLeftmost(s, sp);
  }

  /** A span whose prefix and closer are in place is a match, capturing its group. */
  lemma FoundSpanMatches(s: string, sp: Span, g: string)
    requires Opens(s, sp.start) && sp.groupStart == sp.start + |Prefix|
    requires ClosesAt(s, sp.groupStart, sp.groupEnd)
    requires g == s[sp.groupStart..sp.groupEnd]
    ensures MatchesAt(s, sp.start, g)
  {
    assert sp.start + |Prefix| + |g| == sp.groupEnd;
  }

  /** No shorter group closes the match the search found. */
  lemma FoundSpanShortest(s: string, sp: Span, n: int)
    requires MatchFrom(s, 0) == Some(sp)
    requires n == sp.groupEnd - sp.groupStart
    ensures forall g' :: MatchesAt(s, sp.start, g') ==> n <= |g'|
  {
    forall g' | MatchesAt(s, sp.start, g')
      ensures n <= |g'|
    {
      assert ClosesAt(s, sp.groupStart, sp.groupStart + |g'|);
    }
  }

  /** No match starts before the one the search found. */
  lemma FoundSpanLeftmost(s: string, sp: Span)
    requires MatchFrom(s, 0) == Some(sp)
    ensures forall i', g' :: 0 <= i' < sp.start ==> !MatchesAt(s, i', g')
  {
    forall i', g' | 0 <= i' < sp.start
      ensures !MatchesAt(s, i', g')
    {
      assert MatchesAt(s, i', g') ==> GroupClosesAt(s, i', i' + |Prefix| + |g'|) && HasMatchAt(s, i');
    }
  }

  /** When the search finds nothing, the pattern matches nowhere. */
  lemma NoSpanNoMatch(s: string)
    requires MatchFrom(s, 0).None?
    ensures forall i, g :: !MatchesAt(s, i, g)
  {
    forall i, g
      ensures !MatchesAt(s, i, g)
    {
      assert MatchesAt(s, i, g) ==> GroupClosesAt(s, i, i + |Prefix| + |g|) && HasMatchAt(s, i);
    }
  }

  /** Two leftmost-lazy matches capture the same group. */
  lemma LeftmostLazyUnique(s: string, i: int, g: string, i': int, g': string)
    requires LeftmostLazyMatch(s, i, g) && LeftmostLazyMatch(s, i', g')
    ensures g == g'
  {
    assert MatchesAt(s, i, g) && MatchesAt(s, i', g');
    assert !(i' < i) && !(i < i');
    assert |g| <= |g'| && |g'| <= |g|;
  }

  /** The leftmost-lazy match is unique, so the function returns it whenever it exists. */
  lemma MatchWelcomeComplete(s: string, i: int, g: string)
    requires LeftmostLazyMatch(s, i, g)
    ensures MatchWelcome(s) == Some(g)
  {
    assert MatchesAt(s, i, g);
    var r := MatchWelcome(s).value;
    var i' :| LeftmostLazyMatch(s, i', r);
    LeftmostLazyUnique(s, i, g, i', r);
  }
}

=== FILE: wire.dfy ===
/** Payloads exchanged with the chat server over the socket connection. */
module Wire {

  /** The sender name the server uses for its own notices. */
  const SystemSender := "system"

  /** A chat message as delivered by `chatHistory` and `message`; the timestamp is kept
      as the server's text and only ever displayed. */
  datatype Message = Message(senderUsername: string, text: string, timestamp: string)

  /** One entry of a `roomUsers` presence snapshot. */
  datatype OnlineUser = OnlineUser(email: string)

  /** A lobby room as listed over REST and announced by `newRoomCreated`. */
  datatype Room = Room(id: string, name: string)

  /** The outbound `joinRoom` payload. */
  datatype JoinRequest = JoinRequest(email: string, roomId: string, userId: string)
}
